=== FILE: README.md ===
# UTM and MGRS conversion: the discrete core

This project models the table-driven half of `CoordinateConversion`, a converter
between latitude/longitude and two grid notations:

- UTM, written as `"<zone> <band> <easting> <northing>"`;
- MGRS, the 15-character military grid reference. It has a two-digit zone, a
  band letter, two letters naming a 100 km square, and two five-digit offsets
  inside that square.

The model covers:

- the range check on coordinates;
- the longitude zone, its two-digit text and its central meridian;
- the latitude band lookup over the 22-letter table, and the reverse lookup
  from a band letter to its southern edge;
- the hemisphere test on a band text;
- the two 100 km square letters (`Digraphs`) and their inverse lookups;
- the assembly of both text forms;
- how the decoders split those texts and rebuild zone, easting, northing and
  central meridian, up to the point where the inverse projection takes over.

The transverse-Mercator series between these parts is floating point and is
not modelled. The forward direction takes easting and northing as parameters,
already truncated to whole meters, as the code's `(int)` casts leave them.
Latitude and longitude are exact `real`s.

Java's semantics are written out wherever they matter:

- `(int)` of a double truncates toward zero and saturates at the 32-bit bounds
  (`Numerics.TruncateToInt`);
- integer `/` and `%` truncate (`TruncDiv`, `TruncRem`). The square-letter keys divide a double easting or northing by 100000 and cast the quotient; the encoders hand over the untruncated values, but for non-negative values truncating to whole meters first gives the same quotient, so the model divides whole numbers;
- `String.valueOf` prints a minus sign and no leading zeros (`Decimal`);
- `String.split(" ")` drops trailing empty pieces (`Tokens`);
- `String.indexOf(String)` is a substring search (`Utm.IndexOfText`);
- concatenating a missing hash-table entry prints `null` (`Mgrs.LookupText`, reflected in the length promise of `Mgrs.MgrsText`).

Modules, one per file: `Sequences`, `Numerics`, `Decimal`, `Tokens`,
`Validation`, `LongZones`, `LatZones`, `Digraphs`, `Utm`, `Mgrs`.

## Model

| member | source | states |
|---|---|---|
| Validation.Validate | core/playground/com/ibm/util/CoordinateConversion.java:49-54 | A coordinate passes exactly when latitude is in [-90, 90] and longitude in [-180, 180). Anything else fails with the fixed range message; nothing is clamped. |
| LongZones.LongZone | core/playground/com/ibm/util/CoordinateConversion.java:129-136 | For every legal longitude the zone number is in [1, 60] and equals floor((longitude + 180) / 6) + 1, even though negative and non-negative longitudes use different expressions. |
| LongZones.ZoneText | core/playground/com/ibm/util/CoordinateConversion.java:129-141 | For every legal longitude the zone is printed as exactly two decimal digits, and those digits read back as the zone number. |
| LongZones.PadZoneValue | core/playground/com/ibm/util/CoordinateConversion.java:136-139 | Every number in [0, 100) printed and padded to two characters gives two digits that read back as the number. |
| LongZones.ZoneVariable | core/playground/com/ibm/util/CoordinateConversion.java:103-108 | The zone `var1` of the projection set-up equals the printed zone for every legal longitude. |
| LongZones.LongitudeOffset | core/playground/com/ibm/util/CoordinateConversion.java:109-111 | The offset `p` from the central meridian, in units of 10,000 arc seconds, lies in [-1.08, 1.08) for every legal longitude. |
| LongZones.ZoneCentralMeridian | core/playground/com/ibm/util/CoordinateConversion.java:109-110 | Every legal longitude lies in [-3, 3) degrees of its zone's central meridian `6 * zone - 183`. |
| LongZones.CentralMeridian | core/playground/com/ibm/util/CoordinateConversion.java:109 | The central meridian `6 * zone - 183` lies 3 degrees past a multiple of 6, and inside [-177, 177] for a zone in [1, 60]. |
| LongZones.ZoneMonotone | core/playground/com/ibm/util/CoordinateConversion.java:129-136 | Zone numbers never decrease as the longitude grows across the legal range. |
| Numerics.TruncateToInt | core/playground/com/ibm/util/CoordinateConversion.java:603 | The cast `(int)` rounds toward zero within the 32-bit range, so the result is within one of the argument on the argument's side of zero. It saturates at the bounds. |
| Numerics.TruncDiv | core/playground/com/ibm/util/CoordinateConversion.java:553 | Java's integer division rounds the quotient toward zero: for a non-negative dividend the quotient times the divisor is at or below it and within one divisor, for a negative dividend at or above it and within one divisor. |
| Numerics.TruncRem | core/playground/com/ibm/util/CoordinateConversion.java:550 | Java's `%`: quotient times divisor plus remainder gives the dividend back. The remainder takes the dividend's sign and has a smaller magnitude than the divisor. |
| Sequences.IndexOf | core/playground/com/ibm/util/CoordinateConversion.java:591-599 | A front-to-back table scan gives the first position holding the element, or -1 exactly when the element is absent. |
| Sequences.OneBasedIndexOf | core/playground/com/ibm/util/CoordinateConversion.java:528-536 | The same scan counted from 1: -1 exactly when absent, otherwise the first position in [1, length] holding the element. |
| LatZones.Scan | core/playground/com/ibm/util/CoordinateConversion.java:605-637 | Either loop of the band lookup over an ascending edge table. It gives -2 exactly when every edge is below the latitude, -1 only when the latitude is below the first edge, and otherwise an edge at or below the latitude whose successor is above it. |
| LatZones.Settle | core/playground/com/ibm/util/CoordinateConversion.java:639-650 | The two fix-ups of the scan result: a found position is kept, and -1 or -2 become positions inside the table. |
| LatZones.SettledScanCovers | core/playground/com/ibm/util/CoordinateConversion.java:639-650 | After the two fix-ups (-1 becomes the first entry, -2 the last), the scan of any ascending table lands on the entry whose interval holds the latitude. |
| LatZones.NorthernIndex | core/playground/com/ibm/util/CoordinateConversion.java:605-619 | For a non-negative whole degree, the northern scan picks a position in [0, 11) whose band in the full table holds the latitude. |
| LatZones.NorthernCovers | core/playground/com/ibm/util/CoordinateConversion.java:582-584 | An interval of the northern half-table, for a non-negative latitude, is the interval of the matching band of the full table. |
| LatZones.SouthernIndex | core/playground/com/ibm/util/CoordinateConversion.java:620-637 | For a negative whole degree, the southern scan picks a position in [0, 11) whose band in the full table holds the latitude. |
| LatZones.SouthernCovers | core/playground/com/ibm/util/CoordinateConversion.java:578-580 | An interval of the southern half-table, for a negative latitude, is the interval of the matching band of the full table. |
| LatZones.LatZone | core/playground/com/ibm/util/CoordinateConversion.java:601-654 | The band letter is one of the 22 table letters, and its band holds the truncated latitude: the first band also takes everything further south, the last everything further north. |
| LatZones.LatZoneDegree | core/playground/com/ibm/util/CoordinateConversion.java:591-599 | The reverse lookup gives -100 exactly for a letter outside the table, and otherwise the degree paired with the letter's position. |
| LatZones.LatZoneDegreeTable | core/playground/com/ibm/util/CoordinateConversion.java:574-576 | The reverse lookup of every table letter gives the degree at the same position. |
| LatZones.BandCoversUnique | core/playground/com/ibm/util/CoordinateConversion.java:576 | The band intervals do not overlap: at most one band holds a given whole degree. |
| LatZones.BandBracket | core/playground/com/ibm/util/CoordinateConversion.java:591-599 | For the band holding a latitude, the degree of its letter is at or below it (for every band but the first). The degree of the next table letter is above it. |
| LatZones.LatZoneBounds | core/playground/com/ibm/util/CoordinateConversion.java:601-654 | For a legal latitude, the degree of the band letter found is at or below the truncated latitude. The degree of the next letter in the table is above it. |
| LatZones.LatZoneEdges | core/playground/com/ibm/util/CoordinateConversion.java:601-654 | A truncated latitude of 84 or more gives 'Z', of -85 or less gives 'A'. Every latitude in (-1, 1), negative ones included, gives 'N'. |
| LatZones.BandAt | core/playground/com/ibm/util/CoordinateConversion.java:601-654 | The band letter is the letter of whichever band holds the truncated latitude. |
| LatZones.TableHalves | core/playground/com/ibm/util/CoordinateConversion.java:574-584 | The negative half-tables are the first eleven entries of the full letter and degree tables, and the non-negative ones the rest. |
| LatZones.DegreesBounded | core/playground/com/ibm/util/CoordinateConversion.java:576 | Every edge of the degree table lies in [-90, 84]. |
| LatZones.LettersUpperCase | core/playground/com/ibm/util/CoordinateConversion.java:574 | Every band letter is an upper-case letter, so none is a space. |
| Digraphs.Digraph1 | core/playground/com/ibm/util/CoordinateConversion.java:548-555 | The column lookup finds a letter exactly when the key `8 * ((zone - 1) % 3) + easting / 100000` (Java arithmetic) is in [1, 24]; that letter is a column letter. |
| Digraphs.ColumnKey | core/playground/com/ibm/util/CoordinateConversion.java:549-553 | For a positive zone and non-negative easting, the Java arithmetic of the column key equals `8 * ((zone - 1) mod 3) + easting / 100000`. |
| Digraphs.ColumnTable | core/playground/com/ibm/util/CoordinateConversion.java:479-502 | The column table has an entry exactly for keys 1 to 24, and the entry for a key is the letter whose column index is that key. |
| Digraphs.ColumnEntry | core/playground/com/ibm/util/CoordinateConversion.java:474 | The column alphabet has 24 letters and the letter at 1-based position k reads back as k. |
| Digraphs.Digraph2 | core/playground/com/ibm/util/CoordinateConversion.java:557-569 | The row lookup always finds a row letter. The +19 correction keeps even a negative key inside the table. |
| Digraphs.RowKey | core/playground/com/ibm/util/CoordinateConversion.java:558-566 | The row key after the +19 correction is in [0, 20); for a positive zone and non-negative northing it equals `(1 + 5 * ((zone - 1) mod 2) + northing / 100000) mod 20`. |
| Digraphs.RowTable | core/playground/com/ibm/util/CoordinateConversion.java:504-524 | The row table has an entry exactly for keys 0 to 20. Each entry below 20 reads back as its key, and the extra entry 20 is a second 'V' that reads back as 0. |
| Digraphs.SecondV | core/playground/com/ibm/util/CoordinateConversion.java:476 | The 21st row letter reads back as row index 0. |
| Digraphs.Digraph1Index | core/playground/com/ibm/util/CoordinateConversion.java:528-536 | The column index is -1 exactly for a letter outside the column alphabet. Otherwise it is the 1-based position in [1, 24] that holds the letter. |
| Digraphs.Digraph2Index | core/playground/com/ibm/util/CoordinateConversion.java:538-546 | The row index is -1 exactly for a letter outside the row alphabet. Otherwise it is a position in [0, 20) holding the letter, so 'V' reads as 0 and never as 20. |
| Digraphs.RowIndexOf | core/playground/com/ibm/util/CoordinateConversion.java:476 | Each of the first 20 row letters reads back as its own position. |
| Digraphs.ColumnLetterRoundTrip | core/playground/com/ibm/util/CoordinateConversion.java:548-555 | For zone at least 1 and easting in [100000, 900000), the column letter exists. Its index is `8 * ((zone - 1) mod 3) + easting / 100000`, which lies in [1, 24]. |
| Digraphs.ColumnLetterCycle | core/playground/com/ibm/util/CoordinateConversion.java:548-555 | The column letter depends on the zone only through `(zone - 1) mod 3`. |
| Digraphs.NeighbourColumns | core/playground/com/ibm/util/CoordinateConversion.java:548-555 | Outside [100000, 900000) the key may still be in the table and name a letter of the neighbouring column set: 50 km in zone 2 gives 'H', 950 km in zone 1 gives 'J'. |
| Digraphs.RowLetterRoundTrip | core/playground/com/ibm/util/CoordinateConversion.java:557-569 | For zone at least 1 and non-negative northing, the row letter's index is `(1 + 5 * ((zone - 1) mod 2) + northing / 100000) mod 20`. |
| Tokens.Pieces | core/playground/com/ibm/util/CoordinateConversion.java:339 | Cutting a text at every space gives at least one piece, and exactly one when the text has no space. |
| Tokens.PiecesSpaceFree | core/playground/com/ibm/util/CoordinateConversion.java:339 | No piece of a text cut at its spaces contains a space. |
| Tokens.Split | core/playground/com/ibm/util/CoordinateConversion.java:339 | Java's `split(" ")`: a space-free text is its own single piece; no piece contains a space; when the text had a space, the last piece kept is not empty. |
| Tokens.DropTrailingEmpty | core/playground/com/ibm/util/CoordinateConversion.java:339 | Java's split keeps a prefix of the pieces that does not end in an empty piece. Every piece it drops is empty. |
| Tokens.PiecesCons | core/playground/com/ibm/util/CoordinateConversion.java:339 | A space-free token followed by a space is cut off as the first piece, and the rest is cut independently. |
| Tokens.PiecesWhole | core/playground/com/ibm/util/CoordinateConversion.java:339 | A space-free text is a single piece. |
| Tokens.SplitFour | core/playground/com/ibm/util/CoordinateConversion.java:339-343 | Four space-free tokens joined by single spaces split back into the same four, provided the last is not empty. |
| Utm.IndexOfText | core/playground/com/ibm/util/CoordinateConversion.java:331 | The substring search gives -1 exactly when the needle occurs at no position from the start point. Otherwise it gives the first such position: the needle occurs there and at no earlier one. |
| Utm.HemisphereOf | core/playground/com/ibm/util/CoordinateConversion.java:327-335 | The hemisphere is south exactly when the band text occurs somewhere inside "ACDEFGHJKLM". |
| Utm.HemisphereOfLetter | core/playground/com/ibm/util/CoordinateConversion.java:327-335 | For a one-letter band the hemisphere is south exactly when the letter is one of "ACDEFGHJKLM". |
| Utm.OccursAtLetter | core/playground/com/ibm/util/CoordinateConversion.java:331 | A one-character text occurs in a string exactly when its character does. |
| Utm.SouthernLetters | core/playground/com/ibm/util/CoordinateConversion.java:327 | A band letter is one of the southern letters exactly when it is among the first eleven of the band table. |
| Utm.NegativeBands | core/playground/com/ibm/util/CoordinateConversion.java:576 | The first eleven bands hold exactly the negative whole degrees. |
| Utm.HemisphereOfBand | core/playground/com/ibm/util/CoordinateConversion.java:327-335 | The band letter found for a latitude tests as south exactly when the latitude truncates to a negative whole degree. |
| Utm.InverseCentralMeridian | core/playground/com/ibm/util/CoordinateConversion.java:354-359 | For a positive zone, the decoder's central meridian is the encoder's `6 * zone - 183`. For a zone of zero or below it falls back to 3 degrees. |
| Utm.UtmText | core/playground/com/ibm/util/CoordinateConversion.java:76-93 | The UTM text is produced exactly for legal coordinates. Any other coordinate gives the range error. |
| Utm.JoinTokens | core/playground/com/ibm/util/CoordinateConversion.java:89 | Four space-free tokens, the last non-empty, joined by single spaces split back into exactly those four tokens. |
| Utm.ParseUtm | core/playground/com/ibm/util/CoordinateConversion.java:337-359 | The decoder reads a non-negative easting. The hemisphere is that of the band token; a northern northing is the fourth token as read, and a southern one is 10,000 km less the fourth token. For a positive zone the central meridian is the zone's. |
| Utm.ParseJoined | core/playground/com/ibm/util/CoordinateConversion.java:339-343 | Four tokens joined by spaces are read back field by field: zone, band text, easting, the northing as the hemisphere adjusts it, and the central meridian. |
| Utm.UtmRoundTrip | core/playground/com/ibm/util/CoordinateConversion.java:337-359 | Decoding an encoded UTM text recovers the zone, band, easting and northing. The hemisphere is south exactly for a negative truncated latitude, and the central meridian is within three degrees of the longitude. |
| Utm.NearEquatorNorthern | core/playground/com/ibm/util/CoordinateConversion.java:331 | A latitude in (-1, 0) truncates to 0, gets band 'N' and tests as northern. |
| Decimal.NatToString | core/playground/com/ibm/util/CoordinateConversion.java:136 | A non-negative number prints as a non-empty digit string with no leading zero, one digit exactly below 10, two digits in [10, 100). |
| Decimal.IntToString | core/playground/com/ibm/util/CoordinateConversion.java:136 | A negative number prints as a minus sign followed by the digits of its magnitude, which read back as that magnitude; a non-negative one prints as its plain digits. |
| Decimal.ParseDigits | core/playground/com/ibm/util/CoordinateConversion.java:262 | A digit string of length k reads as a number below 10^k. |
| Decimal.ParseNatToString | core/playground/com/ibm/util/CoordinateConversion.java:136 | Printing a non-negative number and reading it back gives the number. |
| Decimal.ParseLeadingZeros | core/playground/com/ibm/util/CoordinateConversion.java:137-139 | Leading zeros do not change the value of a digit string. |
| Decimal.ParseSuffix | core/playground/com/ibm/util/CoordinateConversion.java:244 | The last k digits of a digit string hold its value modulo 10^k. |
| Decimal.ZeroPad | core/playground/com/ibm/util/CoordinateConversion.java:241-243 | Padding a digit text shorter than five characters gives at least five digits of the same value. |
| Decimal.OffsetField | core/playground/com/ibm/util/CoordinateConversion.java:240-251 | An offset field is exactly five digits whose value is the number modulo 100000. |
| Decimal.EastingField | core/playground/com/ibm/util/CoordinateConversion.java:240-244 | The easting field is five digits reading as `easting mod 100000`. |
| Decimal.NorthingField | core/playground/com/ibm/util/CoordinateConversion.java:247-251 | The northing field pads with only four zeros and is still five digits reading as `northing mod 100000`. |
| Decimal.PaddedDecimal | core/playground/com/ibm/util/CoordinateConversion.java:240-251 | The independent description of a field: k digit characters. |
| Decimal.PaddedDecimalValue | core/playground/com/ibm/util/CoordinateConversion.java:240-251 | The k-digit padded decimal of a number reads as the number modulo 10^k. |
| Decimal.FieldsDetermined | core/playground/com/ibm/util/CoordinateConversion.java:240-251 | Two digit strings of the same length and value are equal. |
| Decimal.OffsetFieldsAgree | core/playground/com/ibm/util/CoordinateConversion.java:240-251 | Both offset fields equal the zero-padded five-digit decimal of the value modulo 100000. The different pad lengths make no difference. |
| Mgrs.MgrsText | core/playground/com/ibm/util/CoordinateConversion.java:224-255 | The MGRS text is produced exactly for legal coordinates; any other coordinate gives the range error. A produced text has 15 characters exactly when the column letter exists, since a missing one prints as the four characters "null". |
| Mgrs.MgrsConcat | core/playground/com/ibm/util/CoordinateConversion.java:237-253 | For a legal coordinate and an easting in [100000, 900000), both square letters are present. The text is zone text, band, column, row, easting field, northing field. |
| Mgrs.Fields | core/playground/com/ibm/util/CoordinateConversion.java:262-268 | In the fixed-width layout, the decoder's substrings [0,2), [2,3), [3,4), [4,5), [5,10) and [10,15) are exactly the six encoded fields. |
| Mgrs.MgrsLayout | core/playground/com/ibm/util/CoordinateConversion.java:240-253 | The reference has 15 characters: zone text, band, column letter, row letter, and the zero-padded five-digit decimals of easting and northing modulo 100000. |
| Mgrs.ParsedReference | core/playground/com/ibm/util/CoordinateConversion.java:262-268 | An encoded reference is well formed for the decoder. Its substrings read back the zone number, band, both letters and both offsets. |
| Mgrs.BandAnchor | core/playground/com/ibm/util/CoordinateConversion.java:273-274 | The anchor is a multiple of 2,000 km (hence of 100 km), and it is the largest one at or below the band's nominal distance from the equator. |
| Mgrs.ParseMgrs | core/playground/com/ibm/util/CoordinateConversion.java:259-296 | The decoder reads a zone in [0, 100) and the band character. The rebuilt easting and northing keep their field offsets modulo 100000, and the central meridian is the zone's. |
| Mgrs.RowStart | core/playground/com/ibm/util/CoordinateConversion.java:280-283 | The decoder's equator letter is 1 or 6, and for a positive zone it equals the encoder's start `1 + 5 * ((zone - 1) mod 2)`. |
| Mgrs.DecodeEasting | core/playground/com/ibm/util/CoordinateConversion.java:292-296 | The decoded easting adds only whole 100 km squares to the offset, so it keeps the offset modulo 100000. |
| Mgrs.DecodeNorthing | core/playground/com/ibm/util/CoordinateConversion.java:271-289 | The decoded northing keeps the offset modulo 100000, the 10,000 km wrap included. |
| Mgrs.RowNorthing | core/playground/com/ibm/util/CoordinateConversion.java:284-289 | For an anchor that is a multiple of 100 km the row arithmetic keeps the offset modulo 100000; unless the base lies 10,000 km or more below the equator the result is above the offset. |
| Mgrs.RowPosition | core/playground/com/ibm/util/CoordinateConversion.java:557-569 | The encoded row letter sits `northing / 100000` places after the decoder's equator letter, modulo 20. |
| Mgrs.ColumnBase | core/playground/com/ibm/util/CoordinateConversion.java:293-295 | The decoder's `{16, 0, 8}[zone mod 3]` equals the encoder's column start `8 * ((zone - 1) mod 3)`. |
| Mgrs.EastingRoundTrip | core/playground/com/ibm/util/CoordinateConversion.java:292-296 | For zone at least 1 and easting in [100000, 900000), decoding the column letter and `easting mod 100000` gives the easting back exactly. |
| Mgrs.CycleArithmetic | core/playground/com/ibm/util/CoordinateConversion.java:284-289 | With an anchor that is a multiple of 2,000 km and the row index the encoder produces, the decoded northing differs from the encoded one by a multiple of 2,000 km. |
| Mgrs.RowCongruent | core/playground/com/ibm/util/CoordinateConversion.java:284-289 | For a row letter where the encoder puts it, the decoded northing is the encoded one plus whole 2,000 km cycles. |
| Mgrs.NorthingCongruent | core/playground/com/ibm/util/CoordinateConversion.java:271-289 | For any band, the decoded northing equals the encoded northing plus a whole number of 2,000 km cycles. |
| Mgrs.WindowArithmetic | core/playground/com/ibm/util/CoordinateConversion.java:284-289 | Inside the 2,000 km window starting at the anchor less the equator letter (from 100 km up), or that window moved up by the 10,000 km wrap (below 10,100 km), the decoded northing is exact. |
| Mgrs.WindowNecessary | core/playground/com/ibm/util/CoordinateConversion.java:284-289 | The converse: when the decoded northing equals the encoded one, the northing lies in that window. Outside it the decoder is off by a non-zero number of 2,000 km cycles. |
| Mgrs.RowExact | core/playground/com/ibm/util/CoordinateConversion.java:284-289 | For a row letter where the encoder puts it, the row arithmetic gives the northing back exactly when the northing lies inside the window, and only then. |
| Mgrs.NorthingRecovered | core/playground/com/ibm/util/CoordinateConversion.java:271-289 | The decoded northing equals the encoded one if and only if the northing lies in the window: at least 100 km and inside the 2,000 km that start at the band anchor less the zone's equator letter (1 for odd zones, 6 for even ones), or that window moved up by 10,000 km and below 10,100 km where the decoder wraps. |
| Mgrs.MgrsRoundTrip | core/playground/com/ibm/util/CoordinateConversion.java:259-296 | Decoding an encoded reference recovers the zone, the band and the exact easting. The northing comes back modulo 2,000 km, and the central meridian is within three degrees of the longitude. |
| Mgrs.EquatorWrapHigh | core/playground/com/ibm/util/CoordinateConversion.java:271-289 | Counterexample to exact recovery outside the window: 50 km north in zone 31 encodes to row 'A' and decodes in band 'N' to 10,050 km. |
| Mgrs.BandMCycleLow | core/playground/com/ibm/util/CoordinateConversion.java:271-289 | Counterexample to exact recovery outside the window: 9,500 km in zone 32 encodes to row 'A' with offset 0 and decodes in band 'M' to 7,500 km, 2,000 km low. |
| Mgrs.BandQCycleLow | core/playground/com/ibm/util/CoordinateConversion.java:271-289 | Counterexample to exact recovery outside the window: 2,100 km in zone 31 encodes to row 'B' with offset 0 and decodes in band 'Q' to 100 km, 2,000 km low. |

## Left out

- The transverse-Mercator series: the radius and coefficient lines of both `setVariables`, `getEasting`, `getNorthing`, and the latitude and longitude recovery after the decoders. They are `sin`/`cos`/`pow` over doubles, and their round trips hold only within floating tolerance. Easting and northing are parameters of the encoders, and the decoders stop where the series starts.
- `degreeToRadian` and `radianToDegree`: floating scalings by pi, with nothing exact to state.
- Floating-point rounding of the double arithmetic: longitudes and latitudes are exact reals, so a longitude within one ulp of a zone edge may fall on the other side in the program.
- NaN inputs: no real is NaN. The range check in the program lets NaN through, because every comparison with it is false.
- Easting and northing are non-negative whole meters (`nat`). The forward projection produces non-negative values in both hemispheres, so a negative easting or northing, and its `-` sign in the text, is not modelled.
- Utm.ParseUtm: parsing failures of `Integer.parseInt`, `Double.parseDouble` and a short split array throw in the program. Here they are a precondition that the numeric tokens are plain digit strings. Signs, decimal points and exponents, which `Double.parseDouble` would accept, are not modelled.
- Mgrs.ParseMgrs: `substring` on a short reference and number parsing failures throw in the program. Here they are a precondition of at least 15 characters with digit fields. A signed or fractional offset is not modelled.
- Mgrs.RowStart and Mgrs.DecodeEasting require a non-negative zone. The zone comes from two digits, so Java's `%` there is the ordinary remainder.
- Mgrs.MgrsRoundTrip: the northing is stated only modulo 2,000 km, because the row letter cycles every 2,000 km. `Mgrs.NorthingRecovered` states the window where the northing comes back exactly. Outside it, the program itself decodes to a different northing (`Mgrs.WindowNecessary`).
- LatZones.LatZoneDegree takes the band character, where the program takes a string and reads its first character. An empty string throws in the program.
- Behaviour outside the domains stated above is modelled but not characterised: eastings outside [100000, 900000) can give a missing column letter printed as "null" (below 100 km in zones 1, 4, 7, …, and from 900 km on in zones 3, 6, 9, …; `Mgrs.MgrsText` states when, through the length of the text), and otherwise give a letter of the neighbouring zone's column set (`Digraphs.NeighbourColumns`), which `Mgrs.EastingRoundTrip` does not cover; a negative row key wraps by +19; the decoder's `a3` can stay at or below zero after its single 10,000 km wrap.
- The scenario generator glue (`Parcels`) that calls into the converter is not part of this model. It is builder code over a random generator and collaborators whose code is not available.

## Notes on the code's behaviour

The model follows the code where a reader of the MGRS standard might expect otherwise:

- The band table starts with 'A' at -90 and 'C' at -84. The standard starts band 'C' at -80.
- A whole-degree latitude is found from `(int) latitude`. Every latitude in (-1, 0) therefore lands in the northern band 'N' and tests as northern. The northing, though, gets the 10,000 km false northing for any negative latitude (`CoordinateConversion.java:145`), so such a point is encoded with a southern northing and decoded as northern (`Utm.NearEquatorNorthern`).
- The MGRS northing decoder is exact precisely inside a 2,000 km window (`Mgrs.NorthingRecovered`, both directions). The band's anchor is its southern edge's nominal distance from the equator rounded down to a multiple of 2,000 km; the window runs from the anchor less the zone's equator letter times 100 km (1 in odd zones, 6 in even ones) up 2,000 km, from 100 km on, or that window moved up by 10,000 km where the decoder wraps. Any northing of a band outside its window comes back wrong by whole 2,000 km cycles. Several bands reach past theirs:
  - below 100 km north of the equator, band 'N' has anchor 0 and the wrap meant for southern bands fires: 50 km north in zone 31 comes back as 10,050 km (`Mgrs.EquatorWrapHigh`);
  - in even zones, band 'M' northings from 9,400 km up to 10,000 km lie above the window and come back 2,000 km low: 9,500 km in zone 32 decodes to 7,500 km (`Mgrs.BandMCycleLow`);
  - in odd zones band 'Q' has anchor 0 and its window ends at 1,900 km, so 2,100 km in zone 31 decodes to 100 km (`Mgrs.BandQCycleLow`); in even zones band 'P' likewise loses its northings above 1,400 km.
- A negative row key in `getDigraph2` is corrected by +19, not +20.
- Neither decoder validates its text format. Malformed input throws from Java's own parsing, with no explicit format error.
- The UTM decoder uses a central meridian of 3 degrees for a zone number that is not positive.

=== FILE: decimal.dfy ===
/** Decimal text: Java's `String.valueOf(int)`, digit-string parsing as done by
    `Integer.parseInt`/`Double.parseDouble` on plain digit strings, and the
    fixed-width offset fields of an MGRS reference. */
module Decimal {
  import opened Numerics

  predicate IsDigit(c: char) {
    '0' <= c <= '9'
  }

  predicate IsDigits(s: string) {
    forall i :: 0 <= i < |s| ==> IsDigit(s[i])
  }

  /** A string made only of the character '0'. */
  predicate IsZeros(s: string) {
    forall i :: 0 <= i < |s| ==> s[i] == '0'
  }

  function Pow10(k: nat): (p: nat)
    ensures p >= 1
  {
    if k == 0 then 1 else 10 * Pow10(k - 1)
  }

  function DigitValue(c: char): (d: nat)
    requires IsDigit(c)
    ensures d < 10
  {
    (c as int) - ('0' as int)
  }

  function DigitChar(d: nat): (c: char)
    requires d < 10
    ensures IsDigit(c) && DigitValue(c) == d
  {
    (('0' as int) + d) as char
  }

  /** `String.valueOf(n)` for a non-negative `int`: its decimal digits, no leading zero. */
  function NatToString(n: nat): (s: string)
    ensures 1 <= |s|
    ensures IsDigits(s)
    ensures |s| == 1 <==> n < 10
    ensures 10 <= n < 100 ==> |s| == 2
    ensures |s| > 1 ==> s[0] != '0'
    decreases n
  {
    if n < 10 then [DigitChar(n)] else NatToString(n / 10) + [DigitChar(n % 10)]
  }

  /** `String.valueOf(i)` for any `int`: a minus sign in front of a negative value. */
  function IntToString(i: int): (s: string)
    ensures i >= 0 ==> s == NatToString(i)
    ensures i < 0 ==> |s| >= 2 && s[0] == '-'
    ensures i < 0 ==> IsDigits(s[1..]) && ParseDigits(s[1..]) == -i
  {
    if i < 0 then
      var digits := NatToString(-i);
      ParseNatToString(-i);
      assert ("-" + digits)[1..] == digits;
      "-" + digits
    else NatToString(i)
  }

  /** The value of a string of decimal digits, read most significant digit first. */
  function ParseDigits(s: string): (n: nat)
    requires IsDigits(s)
    ensures n < Pow10(|s|)
    decreases |s|
  {
    if |s| == 0 then 0 else ParseDigits(s[..|s| - 1]) * 10 + DigitValue(s[|s| - 1])
  }

  /** Appending one digit shifts the value one decimal place. */
  lemma ParseAppend(s: string, c: char)
    requires IsDigits(s) && IsDigit(c)
    ensures IsDigits(s + [c])
    ensures ParseDigits(s + [c]) == ParseDigits(s) * 10 + DigitValue(c)
  {
    assert (s + [c])[..|s|] == s;
  }

  /** Printing a natural number and reading it back gives the number. */
  lemma {:induction false} ParseNatToString(n: nat)
    ensures ParseDigits(NatToString(n)) == n
    decreases n
  {
    if n < 10 {
      assert NatToString(n)[..0] == [];
    } else {
      ParseNatToString(n / 10);
      ParseAppend(NatToString(n / 10), DigitChar(n % 10));
    }
  }

  /** Leading zeros do not change the value of a digit string. */
  lemma {:induction false} ParseLeadingZeros(z: string, s: string)
    requires IsZeros(z) && IsDigits(s)
    ensures IsDigits(z + s)
    ensures ParseDigits(z + s) == ParseDigits(s)
    decreases |s|
  {
    if |s| == 0 {
      assert z + s == z;
      ParseZeros(z);
    } else {
      var init := s[..|s| - 1];
      ParseLeadingZeros(z, init);
      assert (z + s)[..|z + s| - 1] == z + init;
    }
  }

  lemma {:induction false} ParseZeros(z: string)
    requires IsZeros(z)
    ensures IsDigits(z)
    ensures ParseDigits(z) == 0
    decreases |z|
  {
    if |z| > 0 {
      ParseZeros(z[..|z| - 1]);
    }
  }

  /** The last `k` digits of a digit string hold its value modulo `10^k`. */
  lemma {:induction false} ParseSuffix(s: string, k: nat)
    requires IsDigits(s) && k <= |s|
    ensures ParseDigits(s[|s| - k..]) == ParseDigits(s) % Pow10(k)
    decreases k
  {
    if k > 0 {
      var init := s[..|s| - 1];
      var d := DigitValue(s[|s| - 1]);
      ParseSuffix(init, k - 1);
      var tail := s[|s| - k..];
      assert tail[..|tail| - 1] == init[|init| - (k - 1)..];
      ShiftMod(ParseDigits(init), d, Pow10(k - 1), ParseDigits(s), Pow10(k));
    }
  }

  /** Appending digit `d` to a value kept modulo `p` keeps it modulo `10 * p`. */
  lemma ShiftMod(x: nat, d: nat, p: nat, y: nat, p10: nat)
    requires d < 10 && p >= 1
    requires y == x * 10 + d && p10 == 10 * p
    ensures y % p10 == (x % p) * 10 + d
  {
    var q, r := x / p, x % p;
    assert y == q * p10 + (r * 10 + d);
    assert r * 10 + d < p10;
    DivModUnique(y, p10, q, r * 10 + d);
  }

  /** The five-character offset field of an MGRS reference, built as
      `LatLon2MGRUTM` does: print the truncated value, prefix the zeros in `pad`
      when the text is shorter than five characters, and keep the last five. */
  function OffsetField(v: nat, pad: string): (field: string)
    requires IsZeros(pad) && |pad| >= 4
    ensures |field| == 5
    ensures IsDigits(field)
    ensures ParseDigits(field) == v % 100000
  {
    var padded := ZeroPad(NatToString(v), pad);
    ParseNatToString(v);
    ParseSuffix(padded, 5);
    assert Pow10(5) == 100000;
    padded[|padded| - 5..]
  }

  /** Prefixing `pad` to a digit text shorter than five characters. */
  function ZeroPad(text: string, pad: string): (padded: string)
    requires IsZeros(pad) && |pad| >= 4
    requires IsDigits(text) && |text| >= 1
    ensures |padded| >= 5 && IsDigits(padded)
    ensures ParseDigits(padded) == ParseDigits(text)
  {
    ParseLeadingZeros(pad, text);
    if |text| < 5 then pad + text else text
  }

  /** The easting field pads with five zeros. */
  function EastingField(v: nat): (field: string)
    ensures |field| == 5 && IsDigits(field)
    ensures ParseDigits(field) == v % 100000
  {
    OffsetField(v, "00000")
  }

  /** The northing field pads with four zeros only, which still reaches five
      characters because a printed number has at least one digit. */
  function NorthingField(v: nat): (field: string)
    ensures |field| == 5 && IsDigits(field)
    ensures ParseDigits(field) == v % 100000
  {
    OffsetField(v, "0000")
  }

  /** A five-digit field is determined by its value: the two paddings agree. */
  lemma {:induction false} FieldsDetermined(a: string, b: string)
    requires IsDigits(a) && IsDigits(b) && |a| == |b|
    requires ParseDigits(a) == ParseDigits(b)
    ensures a == b
    decreases |a|
  {
    if |a| > 0 {
      var ia, ib := a[..|a| - 1], b[..|b| - 1];
      DivModUnique(ParseDigits(a), 10, ParseDigits(ia), DigitValue(a[|a| - 1]));
      DivModUnique(ParseDigits(b), 10, ParseDigits(ib), DigitValue(b[|b| - 1]));
      FieldsDetermined(ia, ib);
      assert a == ia + [a[|a| - 1]] && b == ib + [b[|b| - 1]];
    }
  }

  /** Both offset fields are the zero-padded five-digit decimal of `v mod 100000`. */
  lemma OffsetFieldsAgree(v: nat)
    ensures EastingField(v) == NorthingField(v) == PaddedDecimal(v % 100000, 5)
  {
    var w := v % 100000;
    PaddedDecimalValue(w, 5);
    assert Pow10(5) == 100000;
    DivModUnique(w, 100000, 0, w);
    assert ParseDigits(PaddedDecimal(w, 5)) == w;
    FieldsDetermined(EastingField(v), PaddedDecimal(w, 5));
    FieldsDetermined(NorthingField(v), PaddedDecimal(w, 5));
  }

  /** The `k` lowest decimal digits of `v`, zero-padded: an independent
      description of a fixed-width field. */
  function PaddedDecimal(v: nat, k: nat): (s: string)
    ensures |s| == k && IsDigits(s)
  {
    if k == 0 then [] else PaddedDecimal(v / 10, k - 1) + [DigitChar(v % 10)]
  }

  lemma {:induction false} PaddedDecimalValue(v: nat, k: nat)
    ensures ParseDigits(PaddedDecimal(v, k)) == v % Pow10(k)
    decreases k
  {
    if k > 0 {
      var p, init, d := Pow10(k - 1), PaddedDecimal(v / 10, k - 1), v % 10;
      PaddedDecimalValue(v / 10, k - 1);
      ParseAppend(init, DigitChar(d));
      assert ParseDigits(PaddedDecimal(v, k)) == ParseDigits(init) * 10 + d;
      ShiftMod(v / 10, d, p, v, Pow10(k));
    }
  }
}

=== FILE: digraphs.dfy ===
/** `Digraphs`: the two letters of an MGRS reference that name a 100 km square,
    one for the easting (column) and one for the northing (row). */
module Digraphs {
  import opened Sequences
  import opened Numerics

  /** The column alphabet: A to Z without I and O. */
  const ColumnLetters: seq<char> :=
    ['A', 'B', 'C', 'D', 'E', 'F', 'G', 'H', 'J', 'K', 'L', 'M',
     'N', 'P', 'Q', 'R', 'S', 'T', 'U', 'V', 'W', 'X', 'Y', 'Z']

  /** The row alphabet: A to V without I and O, with 'V' also in front at position 0. */
  const RowLetters: seq<char> :=
    ['V', 'A', 'B', 'C', 'D', 'E', 'F', 'G', 'H', 'J', 'K',
     'L', 'M', 'N', 'P', 'Q', 'R', 'S', 'T', 'U', 'V']

  /** A hash-table lookup: the letter stored under a key, or Java's `null`. */
  datatype Lookup = Letter(letter: char) | Null

  /** The column table maps the keys 1 to 24 to the column alphabet in order. */
  function ColumnTable(key: int): (d: Lookup)
    ensures d.Letter? <==> 1 <= key <= 24
    ensures d.Letter? ==> Digraph1Index(d.letter) == key
  {
    if 1 <= key <= |ColumnLetters| then
      ColumnEntry(key);
      Letter(ColumnLetters[key - 1])
    else Null
  }

  /** The row table maps the keys 0 to 20 to the row alphabet in order. */
  function RowTable(key: int): (d: Lookup)
    ensures d.Letter? <==> 0 <= key <= 20
    ensures d.Letter? && key < 20 ==> Digraph2Index(d.letter) == key
    ensures d.Letter? && key == 20 ==> Digraph2Index(d.letter) == 0
  {
    if 0 <= key < 20 then
      RowIndexOf(key);
      Letter(RowLetters[key])
    else if key == 20 then
      SecondV();
      Letter(RowLetters[20])
    else Null
  }

  lemma ColumnEntry(key: int)
    requires 1 <= key <= 24
    ensures |ColumnLetters| == 24 && Digraph1Index(ColumnLetters[key - 1]) == key
  {
    ColumnLettersAscend();
    IndexOfAscending(ColumnLetters, key - 1);
  }

  /** The column key of `getDigraph1`: a zone-dependent start (1, 9 or 17) plus the
      number of whole 100 km in the easting, less one. */
  function ColumnKey(zone: int, easting: int): (key: int)
    ensures zone >= 1 && easting >= 0 ==> key == 8 * ((zone - 1) % 3) + easting / 100000
  {
    8 * TruncRem(zone - 1, 3) + 1 + TruncDiv(easting, 100000) - 1
  }

  /** `getDigraph1`: the column letter of an easting in a zone. */
  function Digraph1(zone: int, easting: int): (d: Lookup)
    ensures d.Letter? <==> 1 <= ColumnKey(zone, easting) <= 24
    ensures d.Letter? ==> d.letter in ColumnLetters
  {
    ColumnTable(ColumnKey(zone, easting))
  }

  /** The row key of `getDigraph2`: a zone-parity start (1 or 6) plus the number of
      whole 100 km in the northing, reduced by Java's `%` and raised by 19 when negative. */
  function RowKey(zone: int, northing: int): (key: int)
    ensures 0 <= key < 20
    ensures zone >= 1 && northing >= 0 ==> key == (1 + 5 * ((zone - 1) % 2) + northing / 100000) % 20
  {
    var a2 := 1 + 5 * TruncRem(zone - 1, 2);
    var a4 := TruncRem(a2 + TruncDiv(northing, 100000), 20);
    if a4 < 0 then a4 + 19 else a4
  }

  /** `getDigraph2`: the row letter of a northing in a zone. */
  function Digraph2(zone: int, northing: int): (d: Lookup)
    ensures d.Letter?
    ensures d.letter in RowLetters
  {
    RowTable(RowKey(zone, northing))
  }

  /** `getDigraph1Index`: the 1-based position of a column letter, -1 for any other letter. */
  function Digraph1Index(letter: char): (i: int)
    ensures i == -1 <==> letter !in ColumnLetters
    ensures i != -1 ==> 1 <= i <= 24 && ColumnLetters[i - 1] == letter
  {
    OneBasedIndexOf(ColumnLetters, letter)
  }

  /** `getDigraph2Index`: the 0-based position of the first occurrence of a row
      letter, so 'V' reads as 0 and never as 20; -1 for any other letter. */
  function Digraph2Index(letter: char): (i: int)
    ensures i == -1 <==> letter !in RowLetters
    ensures i != -1 ==> 0 <= i < 20 && RowLetters[i] == letter
  {
    IndexOf(RowLetters, letter)
  }

  lemma ColumnLettersAscend()
    ensures AscendingChars(ColumnLetters)
    ensures |ColumnLetters| == 24
  {
  }

  /** Apart from the leading 'V' the row alphabet ascends. */
  lemma RowLettersAscend()
    ensures |RowLetters| == 21
    ensures AscendingChars(RowLetters[1..])
    ensures RowLetters[0] == RowLetters[20] == 'V'
  {
  }

  /** The first 20 row letters are distinct, so each reads back as its position. */
  lemma RowIndexOf(k: int)
    requires 0 <= k < 20
    ensures IndexOf(RowLetters, RowLetters[k]) == k
  {
    RowLettersAscend();
    var tail := RowLetters[1..];
    var i := IndexOf(RowLetters, RowLetters[k]);
    if i < k {
      if i == 0 {
        AscendingCharsOrdered(tail, k - 1, 19);
      } else {
        AscendingCharsOrdered(tail, i - 1, k - 1);
      }
    }
  }

  /** The last row letter is a second 'V', found at position 0. */
  lemma SecondV()
    ensures Digraph2Index(RowLetters[20]) == 0
  {
    RowIndexOf(0);
    assert RowLetters[20] == RowLetters[0];
  }

  /** For a zone of at least 1 and an easting in [100000, 900000) the column letter
      exists, and it reads back as `8 * ((zone - 1) mod 3) + easting / 100000`,
      a position in [1, 24]. */
  lemma ColumnLetterRoundTrip(zone: int, easting: int)
    requires zone >= 1
    requires 100000 <= easting < 900000
    ensures Digraph1(zone, easting).Letter?
    ensures Digraph1Index(Digraph1(zone, easting).letter) == 8 * ((zone - 1) % 3) + easting / 100000
    ensures 1 <= 8 * ((zone - 1) % 3) + easting / 100000 <= 24
  {
    var key := ColumnKey(zone, easting);
    assert key == 8 * ((zone - 1) % 3) + easting / 100000;
    ColumnLettersAscend();
    IndexOfAscending(ColumnLetters, key - 1);
  }

  /** The column letter depends on the zone only through `(zone - 1) mod 3`. */
  lemma ColumnLetterCycle(zone1: int, zone2: int, easting: int)
    requires zone1 >= 1 && zone2 >= 1
    requires (zone1 - 1) % 3 == (zone2 - 1) % 3
    ensures Digraph1(zone1, easting) == Digraph1(zone2, easting)
  {
  }

  /** Outside [100000, 900000) the key can still fall inside the table: it then
      names a letter of the neighbouring zone's column set instead of "null".
      50 km in zone 2 gives key 8, 'H'; 950 km in zone 1 gives key 9, 'J'. */
  lemma NeighbourColumns()
    ensures Digraph1(2, 50000) == Letter('H')
    ensures Digraph1(1, 950000) == Letter('J')
  {
    ColumnLetterAt(2, 50000, 8);
    ColumnLetterAt(1, 950000, 9);
  }

  /** The column letter of a concrete easting, from its key. */
  lemma ColumnLetterAt(zone: int, easting: int, key: int)
    requires zone >= 1 && easting >= 0
    requires key == 8 * ((zone - 1) % 3) + easting / 100000
    requires 1 <= key <= 24
    ensures Digraph1(zone, easting) == Letter(ColumnLetters[key - 1])
  {
  }

  /** For a zone of at least 1 and a non-negative northing the row letter reads back
      as `(1 + 5 * ((zone - 1) mod 2) + northing / 100000) mod 20`. */
  lemma RowLetterRoundTrip(zone: int, northing: int)
    requires zone >= 1
    requires northing >= 0
    ensures Digraph2Index(Digraph2(zone, northing).letter)
      == (1 + 5 * ((zone - 1) % 2) + northing / 100000) % 20
  {
    var key := RowKey(zone, northing);
    assert key == (1 + 5 * ((zone - 1) % 2) + northing / 100000) % 20;
    RowIndexOf(key);
  }
}

=== FILE: lat_zones.dfy ===
/** Latitude bands (`LatZones`): the letter of the band holding a latitude, and the
    nominal southern edge of a band letter. */
module LatZones {
  import opened Sequences
  import opened Numerics

  /** All band letters with the southern edge of each band, in degrees. */
  const Letters: seq<char> :=
    ['A', 'C', 'D', 'E', 'F', 'G', 'H', 'J', 'K', 'L', 'M',
     'N', 'P', 'Q', 'R', 'S', 'T', 'U', 'V', 'W', 'X', 'Z']
  const Degrees: seq<int> :=
    [-90, -84, -72, -64, -56, -48, -40, -32, -24, -16, -8,
     0, 8, 16, 24, 32, 40, 48, 56, 64, 72, 84]

  /** The halves of the table scanned for negative and for non-negative latitudes. */
  const NegLetters: seq<char> := ['A', 'C', 'D', 'E', 'F', 'G', 'H', 'J', 'K', 'L', 'M']
  const NegDegrees: seq<int> := [-90, -84, -72, -64, -56, -48, -40, -32, -24, -16, -8]
  const PosLetters: seq<char> := ['N', 'P', 'Q', 'R', 'S', 'T', 'U', 'V', 'W', 'X', 'Z']
  const PosDegrees: seq<int> := [0, 8, 16, 24, 32, 40, 48, 56, 64, 72, 84]

  lemma LettersAscend()
    ensures AscendingChars(Letters) && |Letters| == 22
  {
  }

  lemma DegreesAscend()
    ensures AscendingInts(Degrees) && |Degrees| == 22
  {
  }

  lemma HalvesAscend()
    ensures AscendingInts(NegDegrees) && AscendingInts(PosDegrees)
  {
  }

  /** Each half-table is the matching part of the whole table. */
  lemma TableHalves()
    ensures NegLetters == Letters[..11] && NegDegrees == Degrees[..11]
    ensures PosLetters == Letters[11..] && PosDegrees == Degrees[11..]
  {
  }

  /** Every edge lies between the southern and the northern limit of the table. */
  lemma DegreesBounded()
    ensures forall i :: 0 <= i < |Degrees| ==> -90 <= Degrees[i] <= 84
  {
    DegreesAscend();
    forall i | 0 < i < |Degrees| - 1
      ensures -90 <= Degrees[i] <= 84
    {
      AscendingIntsOrdered(Degrees, 0, i);
      AscendingIntsOrdered(Degrees, i, |Degrees| - 1);
    }
  }

  /** Every band letter is an upper-case letter. */
  lemma LettersUpperCase(c: char)
    requires c in Letters
    ensures 'A' <= c <= 'Z'
  {
    LettersAscend();
    var k :| 0 <= k < |Letters| && Letters[k] == c;
    if 0 < k {
      AscendingCharsOrdered(Letters, 0, k);
    }
    if k < |Letters| - 1 {
      AscendingCharsOrdered(Letters, k, |Letters| - 1);
    }
  }

  /** Entry `k` of an edge table holds the whole-degree latitude `t`: `t` is not
      below the entry's edge (the first entry also takes everything further south)
      and is below the next edge (the last entry takes everything further north). */
  ghost predicate Covers(edges: seq<int>, k: int, t: int) {
    && 0 <= k < |edges|
    && (k == 0 || edges[k] <= t)
    && (k == |edges| - 1 || t < edges[k + 1])
  }

  /** Band `k` of the whole table holds the whole-degree latitude `t`. */
  ghost predicate BandCovers(k: int, t: int) {
    Covers(Degrees, k, t)
  }

  /** One loop of `getLatZone`, from position `i` on: the position of the edge
      equal to `lat`, else the position before the first edge above `lat`, else
      -2 when every edge is below `lat`. The loop over negative edges tests
      `lat < edge` and the loop over non-negative edges `lat > edge`; once
      equality is ruled out both choose the same way. */
  function Scan(degrees: seq<int>, lat: int, i: nat): (idx: int)
    requires AscendingInts(degrees)
    requires i <= |degrees|
    requires forall j :: 0 <= j < i ==> degrees[j] < lat
    ensures idx == -2 <==> forall j :: 0 <= j < |degrees| ==> degrees[j] < lat
    ensures idx == -1 ==> |degrees| > 0 && lat < degrees[0]
    ensures idx != -2 ==> -1 <= idx < |degrees|
    ensures 0 <= idx ==> degrees[idx] <= lat
    ensures idx != -2 && idx + 1 < |degrees| ==> lat < degrees[idx + 1]
    decreases |degrees| - i
  {
    if i == |degrees| then -2
    else if lat == degrees[i] then i
    else if lat > degrees[i] then Scan(degrees, lat, i + 1)
    else i - 1
  }

  /** `getLatZone`: the band letter of a latitude, chosen from its truncation toward
      zero, so a latitude in (-1, 0) is placed in band 'N'. */
  function LatZone(latitude: real): (band: char)
    ensures band in Letters
    ensures BandCovers(IndexOf(Letters, band), TruncateToInt(latitude))
  {
    LettersAscend();
    TableHalves();
    var lat := TruncateToInt(latitude);
    if lat >= 0 then
      var i := NorthernIndex(lat);
      IndexOfAscending(Letters, 11 + i);
      assert PosLetters[i] == Letters[11 + i];
      PosLetters[i]
    else
      var i := SouthernIndex(lat);
      IndexOfAscending(Letters, i);
      assert NegLetters[i] == Letters[i];
      NegLetters[i]
  }

  /** The two fix-ups after a scan: "south of every edge" becomes the first band,
      "past the end" the last one. */
  function Settle(idx: int, last: int): (k: int)
    ensures -2 <= idx <= last && 0 <= last ==> 0 <= k <= last
    ensures 0 <= idx ==> k == idx
  {
    var k := if idx == -1 then 0 else idx;
    if k == -2 then last else k
  }

  /** A scan over any ascending edge table, once settled, lands on the entry that
      holds the latitude. */
  lemma SettledScanCovers(edges: seq<int>, lat: int)
    requires AscendingInts(edges) && |edges| > 0
    ensures Covers(edges, Settle(Scan(edges, lat, 0), |edges| - 1), lat)
  {
    var idx := Scan(edges, lat, 0);
    if idx == -2 {
      assert edges[|edges| - 1] < lat;
    } else if idx == -1 && 1 < |edges| {
      assert edges[0] < edges[1];
    }
  }

  /** The scan of the non-negative edges, where running past the end selects 'Z'. */
  function NorthernIndex(lat: int): (i: int)
    requires lat >= 0
    ensures 0 <= i < 11 && BandCovers(11 + i, lat)
  {
    HalvesAscend();
    var i := Settle(Scan(PosDegrees, lat, 0), 10);
    SettledScanCovers(PosDegrees, lat);
    NorthernCovers(i, lat);
    i
  }

  /** An entry of the northern half-table covers what the matching band covers. */
  lemma NorthernCovers(k: int, lat: int)
    requires Covers(PosDegrees, k, lat) && lat >= 0
    ensures BandCovers(11 + k, lat)
  {
    TableHalves();
    assert Degrees[11 + k] == Degrees[11..][k];
    if k < 10 {
      assert Degrees[12 + k] == Degrees[11..][k + 1];
    }
  }

  /** The scan of the negative edges, where a latitude south of every edge selects 'A'
      and running past the end selects 'M'. */
  function SouthernIndex(lat: int): (i: int)
    requires lat < 0
    ensures 0 <= i < 11 && BandCovers(i, lat)
  {
    HalvesAscend();
    var i := Settle(Scan(NegDegrees, lat, 0), 10);
    SettledScanCovers(NegDegrees, lat);
    SouthernCovers(i, lat);
    i
  }

  /** An entry of the southern half-table covers what the matching band covers: the
      last southern band ends where the northern half begins, at the equator. */
  lemma SouthernCovers(k: int, lat: int)
    requires Covers(NegDegrees, k, lat) && lat < 0
    ensures BandCovers(k, lat)
  {
    TableHalves();
    assert Degrees[k] == Degrees[..11][k];
    if k < 10 {
      assert Degrees[k + 1] == Degrees[..11][k + 1];
    }
  }

  /** `getLatZoneDegree`: the southern edge of a band letter, -100 for any other letter. */
  function LatZoneDegree(letter: char): (degree: int)
    ensures degree == -100 <==> letter !in Letters
    ensures letter in Letters ==> degree == Degrees[IndexOf(Letters, letter)]
  {
    DegreesBounded();
    var i := IndexOf(Letters, letter);
    if i >= 0 then Degrees[i] else -100
  }

  /** The degree lookup returns the table entry paired with each letter. */
  lemma LatZoneDegreeTable(k: int)
    requires 0 <= k < |Letters|
    ensures LatZoneDegree(Letters[k]) == Degrees[k]
  {
    LettersAscend();
    IndexOfAscending(Letters, k);
  }

  /** At most one band holds a given latitude. */
  lemma BandCoversUnique(k1: int, k2: int, t: int)
    requires BandCovers(k1, t) && BandCovers(k2, t)
    ensures k1 == k2
  {
    DegreesAscend();
    if k1 + 1 < k2 {
      AscendingIntsOrdered(Degrees, k1 + 1, k2);
    } else if k2 + 1 < k1 {
      AscendingIntsOrdered(Degrees, k2 + 1, k1);
    }
  }

  /** For a legal latitude the degree lookup brackets the truncated latitude: the
      band found starts at or below it, and the next letter of the table starts above it. */
  lemma LatZoneBounds(latitude: real)
    requires -90.0 <= latitude <= 90.0
    ensures LatZoneDegree(LatZone(latitude)) <= TruncateToInt(latitude)
    ensures var k := IndexOf(Letters, LatZone(latitude));
      k + 1 < |Letters| ==> TruncateToInt(latitude) < LatZoneDegree(Letters[k + 1])
  {
    var band := LatZone(latitude);
    var k := IndexOf(Letters, band);
    assert Letters[k] == band;
    BandBracket(k, TruncateToInt(latitude));
    if k == 0 {
      LatZoneDegreeTable(0);
    }
  }

  /** The degree lookup of a band's letter and of the next letter bracket whatever
      the band covers. */
  lemma BandBracket(k: int, t: int)
    requires BandCovers(k, t)
    ensures LatZoneDegree(Letters[k]) <= t || k == 0
    ensures k + 1 < |Letters| ==> t < LatZoneDegree(Letters[k + 1])
  {
    LatZoneDegreeTable(k);
    if k + 1 < |Letters| {
      LatZoneDegreeTable(k + 1);
    }
  }

  /** The edge bands, and the truncation toward zero near the equator. */
  lemma LatZoneEdges(latitude: real)
    ensures TruncateToInt(latitude) >= 84 ==> LatZone(latitude) == 'Z'
    ensures TruncateToInt(latitude) <= -85 ==> LatZone(latitude) == 'A'
    ensures -1.0 < latitude < 1.0 ==> LatZone(latitude) == 'N'
  {
    var t := TruncateToInt(latitude);
    if t >= 84 {
      BandAt(latitude, 21);
    }
    if t <= -85 {
      BandAt(latitude, 0);
    }
    if -1.0 < latitude < 1.0 {
      assert t == 0;
      BandAt(latitude, 11);
    }
  }

  /** The band letter is the letter of whichever band holds the truncated latitude. */
  lemma BandAt(latitude: real, k: int)
    requires BandCovers(k, TruncateToInt(latitude))
    ensures LatZone(latitude) == Letters[k]
  {
    var band := LatZone(latitude);
    BandCoversUnique(IndexOf(Letters, band), k, TruncateToInt(latitude));
  }
}

=== FILE: long_zones.dfy ===
/** UTM longitude zones: the zone number of `getLongZone`, its two-digit text, and
    the zone and central meridian that `setVariables` derives from the longitude. */
module LongZones {
  import opened Numerics
  import opened Decimal
  import opened Validation

  /** The zone number `getLongZone` computes before printing it. Negative and
      non-negative longitudes are bucketed by two different expressions. */
  function LongZone(longitude: real): (zone: int)
    ensures ValidLongitude(longitude) ==> 1 <= zone <= 60
    ensures ValidLongitude(longitude) ==> zone == ((longitude + 180.0) / 6.0).Floor + 1
  {
    TruncateToInt(if longitude < 0.0 then (180.0 + longitude) / 6.0 + 1.0 else longitude / 6.0 + 31.0)
  }

  /** `getLongZone`: the zone number printed with at least two characters. */
  function ZoneText(longitude: real): (text: string)
    ensures ValidLongitude(longitude) ==> |text| == 2 && IsDigits(text)
    ensures ValidLongitude(longitude) ==> ParseDigits(text) == LongZone(longitude)
  {
    var zone := LongZone(longitude);
    PadZoneValue(zone);
    PadZone(IntToString(zone))
  }

  /** A one-character zone text gets a leading '0'. */
  function PadZone(val: string): string {
    if |val| == 1 then "0" + val else val
  }

  /** Every zone number below 100 prints as two digits that read back as the number. */
  lemma PadZoneValue(zone: int)
    ensures 0 <= zone < 100 ==>
      var text := PadZone(IntToString(zone));
      |text| == 2 && IsDigits(text) && ParseDigits(text) == zone
  {
    if 0 <= zone < 100 {
      ParseNatToString(zone);
      ParseLeadingZeros("0", NatToString(zone));
    }
  }

  /** The zone number `var1` of `setVariables`, truncated before the offset is added. */
  function ZoneVariable(longitude: real): (var1: int)
    ensures ValidLongitude(longitude) ==> var1 == LongZone(longitude)
  {
    if longitude < 0.0 then TruncateToInt((180.0 + longitude) / 6.0) + 1
    else TruncateToInt(longitude / 6.0) + 31
  }

  /** Longitude of the central meridian of a zone (`var2`, and `zoneCM` when decoding
      MGRS): always 3 degrees from a multiple of 6, and inside (-180, 180) for the
      zones 1 to 60. */
  function CentralMeridian(zone: int): (cm: int)
    ensures (cm + 3) % 6 == 0
    ensures 1 <= zone <= 60 ==> -177 <= cm <= 177
  {
    6 * zone - 183
  }

  /** `p`: the offset from the central meridian, in units of 10,000 arc seconds. */
  function LongitudeOffset(longitude: real): (p: real)
    ensures ValidLongitude(longitude) ==> -1.08 <= p < 1.08
  {
    ZoneCentralMeridian(longitude);
    (longitude - CentralMeridian(ZoneVariable(longitude)) as real) * 3600.0 / 10000.0
  }

  /** Every valid longitude lies within three degrees of its zone's central meridian. */
  lemma ZoneCentralMeridian(longitude: real)
    ensures ValidLongitude(longitude) ==>
      -3.0 <= longitude - CentralMeridian(LongZone(longitude)) as real < 3.0
  {
  }

  /** Zone numbers never decrease as the longitude grows. */
  lemma ZoneMonotone(lon1: real, lon2: real)
    requires ValidLongitude(lon1) && ValidLongitude(lon2)
    requires lon1 <= lon2
    ensures LongZone(lon1) <= LongZone(lon2)
  {
  }
}

=== FILE: mgrs.dfy ===
/** The 15-character MGRS reference: how `LatLon2MGRUTM` assembles it and how
    `MGRUTM2LatLon` rebuilds zone, easting and northing from it before the inverse
    projection. */
module Mgrs {
  import opened Numerics
  import opened Decimal
  import opened Validation
  import opened LongZones
  import opened LatZones
  import opened Digraphs

  /** Java's string concatenation prints a missing letter as "null". */
  function LookupText(d: Lookup): (text: string)
    ensures d.Letter? ==> text == [d.letter]
    ensures d.Null? ==> text == "null"
    ensures |text| == (if d.Letter? then 1 else 4)
  {
    match d
    case Letter(c) => [c]
    case Null => "null"
  }

  /** `convertLatLonToMGRUTM` with the projected easting and northing given, already
      truncated to whole meters: zone, band, column letter, row letter, then the
      two five-digit offsets inside the 100 km square. */
  function MgrsText(latitude: real, longitude: real, easting: nat, northing: nat): (r: Result<string>)
    ensures r.Ok? <==> ValidLatitude(latitude) && ValidLongitude(longitude)
    ensures r.Err? ==> r.error == IllegalArgument(RangeMessage)
    ensures r.Ok? ==> (|r.value| == 15 <==> Digraph1(LongZone(longitude), easting).Letter?)
  {
    match Validate(latitude, longitude)
    case Fail(e) => Err(e)
    case Pass =>
      var longZone := ZoneText(longitude);
      var zone := ParseDigits(longZone);
      Ok(longZone + [LatZone(latitude)]
         + LookupText(Digraph1(zone, easting)) + LookupText(Digraph2(zone, northing))
         + EastingField(easting) + NorthingField(northing))
  }

  /** What `convertMGRUTMToLatLong` hands to the inverse projection. */
  datatype MgrsFields = MgrsFields(
    zone: int, band: char, easting: int, northing: int, centralMeridian: int)

  /** The fields read as numbers are digit strings; `Integer.parseInt`,
      `Double.parseDouble` and `substring` throw on anything else. */
  predicate MgrsWellFormed(mgrs: string) {
    && |mgrs| >= 15
    && IsDigits(mgrs[..2])
    && IsDigits(mgrs[5..10])
    && IsDigits(mgrs[10..15])
  }

  /** The anchor `a2` of a band: the band's nominal distance from the equator
      (`degree * 40,000,000 / 360` meters) rounded down to a multiple of 2,000 km. */
  function BandAnchor(degree: int): (a2: int)
    ensures a2 % 2000000 == 0 && a2 % 100000 == 0
    ensures a2 as real <= degree as real * 40000000.0 / 360.0 < a2 as real + 2000000.0
  {
    var k := (degree as real * 40000000.0 / 360.0 / 2000000.0).Floor;
    DivModUnique(2000000 * k, 2000000, k, 0);
    DivModUnique(2000000 * k, 100000, 20 * k, 0);
    2000000 * k
  }

  /** The row letter that sits at the equator: 6 in even zones, 1 in odd ones. The
      zone is read from two digits, so Java's `%` is the ordinary remainder here. */
  function RowStart(zone: int): (st: int)
    requires zone >= 0
    ensures st == 1 || st == 6
    ensures zone >= 1 ==> st == 1 + 5 * ((zone - 1) % 2)
  {
    if 1 + zone % 2 == 1 then 6 else 1
  }

  /** The offset the easting decoder subtracts from a column position, by `zone mod 3`. */
  const EastingBase: seq<int> := [16, 0, 8]

  /** Easting from the column letter and the five-digit offset: whole 100 km
      squares are added, so the offset inside the square is kept. */
  function DecodeEasting(zone: int, column: char, offset: int): (easting: int)
    requires zone >= 0
    ensures easting % 100000 == offset % 100000
  {
    var squares := Digraph1Index(column) - EastingBase[zone % 3];
    MultipleShift(offset + 100000 * squares, offset, squares);
    offset + 100000 * squares
  }

  /** Northing from the band, the row letter and the five-digit offset: the band
      anchor plus whole 100 km counted from the zone's equator letter, moved up by
      10,000 km when that is not positive. */
  function DecodeNorthing(zone: int, band: char, row: char, offset: int): (northing: int)
    requires zone >= 0
    ensures northing % 100000 == offset % 100000
  {
    RowNorthing(BandAnchor(LatZoneDegree(band)), Digraph2Index(row), RowStart(zone), offset)
  }

  /** The northing decoder once the anchor `a2`, the row position `idx` and the
      equator letter `st` are known. Only whole 100 km are added to the offset,
      and the base is positive unless it lies 10,000 km or more below the equator. */
  function RowNorthing(a2: int, idx: int, st: int, offset: int): (northing: int)
    ensures a2 % 100000 == 0 ==> northing % 100000 == offset % 100000
    ensures a2 + (idx - st) * 100000 > -10000000 ==> northing > offset
  {
    var a3 := a2 + (idx - st) * 100000;
    var n := (if a3 <= 0 then 10000000 + a3 else a3) + offset;
    if a2 % 100000 == 0 then
      MultipleShift(n, offset, a2 / 100000 + idx - st + (if a3 <= 0 then 100 else 0));
      n
    else n
  }

  /** `convertMGRUTMToLatLong` up to the inverse projection series. */
  function ParseMgrs(mgrs: string): (f: MgrsFields)
    requires MgrsWellFormed(mgrs)
    ensures 0 <= f.zone < 100
    ensures f.band == mgrs[2]
    ensures f.easting % 100000 == ParseDigits(mgrs[5..10]) % 100000
    ensures f.northing % 100000 == ParseDigits(mgrs[10..15]) % 100000
    ensures f.centralMeridian == CentralMeridian(f.zone)
  {
    var zone := ParseDigits(mgrs[..2]);
    var eastingOffset := ParseDigits(mgrs[5..10]);
    var northingOffset := ParseDigits(mgrs[10..15]);
    var easting := DecodeEasting(zone, mgrs[3], eastingOffset);
    var northing := DecodeNorthing(zone, mgrs[2], mgrs[4], northingOffset);
    assert Pow10(2) == 100;
    MgrsFields(zone, mgrs[2], easting, northing, CentralMeridian(zone))
  }

  /** Adding whole 100 km leaves the offset within the square unchanged. */
  lemma MultipleShift(x: int, offset: int, k: int)
    requires x == offset + 100000 * k
    ensures x % 100000 == offset % 100000
  {
    DivModUnique(x, 100000, k + offset / 100000, offset % 100000);
  }

  /** The row letter of a northing sits `northing / 100000` places after the
      zone's equator letter, counting modulo 20. */
  lemma RowPosition(zone: int, northing: int)
    requires zone >= 1
    requires northing >= 0
    ensures Digraph2Index(Digraph2(zone, northing).letter) == (RowStart(zone) + northing / 100000) % 20
  {
    var key := RowKey(zone, northing);
    assert RowStart(zone) == 1 + 5 * ((zone - 1) % 2);
    assert key == (RowStart(zone) + northing / 100000) % 20;
    assert Digraph2(zone, northing) == RowTable(key);
  }

  /** The easting decoder inverts the column letter: for a zone of at least 1 and an
      easting in [100000, 900000), the letter and `easting mod 100000` give back the easting. */
  lemma EastingRoundTrip(zone: int, easting: int)
    requires zone >= 1
    requires 100000 <= easting < 900000
    ensures DecodeEasting(zone, Digraph1(zone, easting).letter, easting % 100000) == easting
  {
    var column := Digraph1(zone, easting).letter;
    ColumnLetterRoundTrip(zone, easting);
    ColumnBase(zone);
    SquareArithmetic(Digraph1Index(column) - EastingBase[zone % 3], easting,
                     DecodeEasting(zone, column, easting % 100000));
  }

  /** Whole 100 km squares plus the offset inside the square give the value back. */
  lemma SquareArithmetic(squares: int, value: int, decoded: int)
    requires value >= 0 && squares == value / 100000
    requires decoded == value % 100000 + 100000 * squares
    ensures decoded == value
  {
  }

  /** The decoder's base for `zone mod 3` is the encoder's start `8 * ((zone - 1) mod 3)`. */
  lemma ColumnBase(zone: int)
    requires zone >= 1
    ensures EastingBase[zone % 3] == 8 * ((zone - 1) % 3)
  {
    var q, r := zone / 3, zone % 3;
    if r == 0 {
      DivModUnique(zone - 1, 3, q - 1, 2);
    } else {
      DivModUnique(zone - 1, 3, q, r - 1);
    }
  }

  /** Whatever the band, the decoded northing differs from the encoded one by a
      whole number of 2,000 km cycles: the row letter pins the 100 km square within
      each cycle. */
  lemma NorthingCongruent(zone: int, band: char, northing: int)
    requires zone >= 1
    requires northing >= 0
    ensures exists cycles ::
      DecodeNorthing(zone, band, Digraph2(zone, northing).letter, northing % 100000) == northing + 2000000 * cycles
  {
    RowPosition(zone, northing);
    RowCongruent(zone, band, Digraph2(zone, northing).letter, northing,
                 DecodeNorthing(zone, band, Digraph2(zone, northing).letter, northing % 100000));
  }

  /** The congruence for any row letter standing where the encoder puts it. */
  lemma RowCongruent(zone: int, band: char, row: char, northing: int, decoded: int)
    requires zone >= 1
    requires northing >= 0
    requires Digraph2Index(row) == (RowStart(zone) + northing / 100000) % 20
    requires decoded == DecodeNorthing(zone, band, row, northing % 100000)
    ensures exists cycles :: decoded == northing + 2000000 * cycles
  {
    var a2, st, idx := BandAnchor(LatZoneDegree(band)), RowStart(zone), Digraph2Index(row);
    DecodeRow(zone, band, row, northing % 100000);
    assert decoded == RowNorthing(a2, idx, st, northing % 100000);
    CycleArithmetic(a2, st, idx, northing, decoded);
    var cycles := (decoded - northing) / 2000000;
    assert decoded == northing + 2000000 * cycles;
  }

  /** The northing decoder in terms of anchor, row position and equator letter. */
  lemma DecodeRow(zone: int, band: char, row: char, offset: int)
    requires zone >= 0
    ensures DecodeNorthing(zone, band, row, offset)
      == RowNorthing(BandAnchor(LatZoneDegree(band)), Digraph2Index(row), RowStart(zone), offset)
  {
  }

  /** The arithmetic of the northing decoder: an anchor `a2` that is a multiple of
      2,000 km, equator letter `st`, and row position `(st + northing / 100000) mod 20`. */
  lemma CycleArithmetic(a2: int, st: int, idx: int, northing: int, decoded: int)
    requires a2 % 2000000 == 0
    requires northing >= 0 && st >= 0
    requires idx == (st + northing / 100000) % 20
    requires decoded == RowNorthing(a2, idx, st, northing % 100000)
    ensures (decoded - northing) % 2000000 == 0
  {
    var k := a2 / 2000000;
    var q := northing / 100000;
    var s := st + q;
    var m := s / 20;
    assert s == 20 * m + idx;
    var a3 := a2 + (idx - st) * 100000;
    var w := if a3 <= 0 then 5 else 0;
    assert northing == 100000 * q + northing % 100000;
    var diff := RowNorthing(a2, idx, st, northing % 100000) - northing;
    assert diff == 2000000 * (k - m + w);
    DivModUnique(diff, 2000000, k - m + w, 0);
  }

  /** The northings the row decoder gives back exactly, for anchor `a2` and equator
      letter `st`: the 2,000 km window starting `st` squares below the anchor, from
      100 km up, or, where the decoder adds 10,000 km, that window moved up by
      10,000 km and below 10,100 km. */
  predicate InWindow(a2: int, st: int, northing: int) {
    var low := a2 - st * 100000;
    || (100000 <= northing && low <= northing < low + 2000000)
    || (northing < 10100000 && low + 10000000 <= northing < low + 12000000)
  }

  /** The decoded northing equals the encoded one exactly when the northing lies in
      the window of its band anchor and the zone's equator letter. */
  lemma NorthingRecovered(zone: int, band: char, northing: int)
    requires zone >= 1
    requires northing >= 0
    ensures DecodeNorthing(zone, band, Digraph2(zone, northing).letter, northing % 100000) == northing
            <==> InWindow(BandAnchor(LatZoneDegree(band)), RowStart(zone), northing)
  {
    RowPosition(zone, northing);
    DecodeRow(zone, band, Digraph2(zone, northing).letter, northing % 100000);
    RowExact(zone, BandAnchor(LatZoneDegree(band)), Digraph2(zone, northing).letter, northing,
             DecodeNorthing(zone, band, Digraph2(zone, northing).letter, northing % 100000));
  }

  /** For any anchor and any row letter standing where the encoder puts it, the row
      arithmetic is exact exactly inside the window. */
  lemma RowExact(zone: int, a2: int, row: char, northing: int, decoded: int)
    requires zone >= 1
    requires northing >= 0
    requires a2 % 2000000 == 0
    requires Digraph2Index(row) == (RowStart(zone) + northing / 100000) % 20
    requires decoded == RowNorthing(a2, Digraph2Index(row), RowStart(zone), northing % 100000)
    ensures decoded == northing <==> InWindow(a2, RowStart(zone), northing)
  {
    if InWindow(a2, RowStart(zone), northing) {
      WindowArithmetic(a2, RowStart(zone), Digraph2Index(row), northing, decoded);
    } else if decoded == northing {
      WindowNecessary(a2, RowStart(zone), Digraph2Index(row), northing, decoded);
    }
  }

  /** Inside the window the row position and the anchor pin the northing exactly. */
  lemma WindowArithmetic(a2: int, st: int, idx: int, northing: int, decoded: int)
    requires a2 % 2000000 == 0
    requires northing >= 0 && st >= 0
    requires idx == (st + northing / 100000) % 20
    requires InWindow(a2, st, northing)
    requires decoded == RowNorthing(a2, idx, st, northing % 100000)
    ensures decoded == northing
  {
    var q := northing / 100000;
    var k := a2 / 2000000;
    assert a2 == 2000000 * k;
    assert northing == 100000 * q + northing % 100000;
    var low := a2 - st * 100000;
    if 100000 <= northing && low <= northing < low + 2000000 {
      assert 20 * k <= st + q < 20 * k + 20;
      DivModUnique(st + q, 20, k, st + q - 20 * k);
    } else {
      assert 20 * k + 100 <= st + q < 20 * k + 120;
      DivModUnique(st + q, 20, k + 5, st + q - 20 * k - 100);
    }
  }

  /** Outside the window the decoded northing is off by a non-zero number of
      2,000 km cycles: an exact decode implies the window. */
  lemma WindowNecessary(a2: int, st: int, idx: int, northing: int, decoded: int)
    requires a2 % 2000000 == 0
    requires northing >= 0 && st >= 0
    requires idx == (st + northing / 100000) % 20
    requires decoded == RowNorthing(a2, idx, st, northing % 100000)
    requires decoded == northing
    ensures InWindow(a2, st, northing)
  {
    var q := northing / 100000;
    var k := a2 / 2000000;
    var m := (st + q) / 20;
    assert a2 == 2000000 * k;
    assert northing == 100000 * q + northing % 100000;
    assert st + q == 20 * m + idx;
    var a3 := a2 + (idx - st) * 100000;
    assert a3 == q * 100000 + 2000000 * (k - m);
    if a3 <= 0 {
      assert k - m + 5 == 0;
    } else {
      assert k == m;
    }
  }

  /** For a legal coordinate and an easting in [100000, 900000) the reference is 15
      characters: two zone digits, the band, the column and row letters, and the
      zero-padded five-digit decimals of `easting mod 100000` and `northing mod 100000`. */
  lemma MgrsLayout(latitude: real, longitude: real, easting: nat, northing: nat)
    requires ValidLatitude(latitude) && ValidLongitude(longitude)
    requires 100000 <= easting < 900000
    ensures MgrsText(latitude, longitude, easting, northing).Ok?
    ensures var mgrs := MgrsText(latitude, longitude, easting, northing).value;
      var zone := LongZone(longitude);
      && |mgrs| == 15
      && mgrs[..2] == ZoneText(longitude)
      && mgrs[2] == LatZone(latitude)
      && mgrs[3] == Digraph1(zone, easting).letter
      && mgrs[4] == Digraph2(zone, northing).letter
      && mgrs[5..10] == PaddedDecimal(easting % 100000, 5)
      && mgrs[10..15] == PaddedDecimal(northing % 100000, 5)
  {
    var zone := LongZone(longitude);
    MgrsConcat(latitude, longitude, easting, northing);
    OffsetFieldsAgree(easting);
    OffsetFieldsAgree(northing);
    Fields(ZoneText(longitude), LatZone(latitude), Digraph1(zone, easting).letter,
           Digraph2(zone, northing).letter, EastingField(easting), NorthingField(northing));
  }

  /** The reference as the concatenation of its six fields, every letter present. */
  lemma MgrsConcat(latitude: real, longitude: real, easting: nat, northing: nat)
    requires ValidLatitude(latitude) && ValidLongitude(longitude)
    requires 100000 <= easting < 900000
    ensures MgrsText(latitude, longitude, easting, northing).Ok?
    ensures var zone := LongZone(longitude);
      && Digraph1(zone, easting).Letter?
      && MgrsText(latitude, longitude, easting, northing).value
        == ZoneText(longitude) + [LatZone(latitude)]
          + [Digraph1(zone, easting).letter] + [Digraph2(zone, northing).letter]
          + EastingField(easting) + NorthingField(northing)
  {
    ColumnLetterRoundTrip(LongZone(longitude), easting);
  }

  /** Where each field of the fixed-width layout sits. */
  lemma Fields(z: string, b: char, c: char, r: char, e: string, n: string)
    requires |z| == 2 && |e| == 5 && |n| == 5
    ensures var s := z + [b] + [c] + [r] + e + n;
      && |s| == 15 && s[..2] == z && s[2] == b && s[3] == c && s[4] == r
      && s[5..10] == e && s[10..15] == n
  {
    var s := z + [b] + [c] + [r] + e + n;
    assert s == (z + [b, c, r]) + (e + n);
    assert (e + n)[..5] == e;
  }

  /** Reading back an encoded reference recovers the zone, the band and the exact
      easting, a northing equal to the encoded one modulo 2,000 km, and the central
      meridian of the zone, within three degrees of the longitude. */
  lemma MgrsRoundTrip(latitude: real, longitude: real, easting: nat, northing: nat)
    requires ValidLatitude(latitude) && ValidLongitude(longitude)
    requires 100000 <= easting < 900000
    ensures MgrsText(latitude, longitude, easting, northing).Ok?
    ensures var mgrs := MgrsText(latitude, longitude, easting, northing).value;
      && MgrsWellFormed(mgrs)
      && ParseMgrs(mgrs).zone == LongZone(longitude)
      && ParseMgrs(mgrs).band == LatZone(latitude)
      && ParseMgrs(mgrs).easting == easting
      && (exists cycles :: ParseMgrs(mgrs).northing == northing + 2000000 * cycles)
      && -3.0 <= longitude - ParseMgrs(mgrs).centralMeridian as real < 3.0
  {
    var zone := LongZone(longitude);
    ParsedReference(latitude, longitude, easting, northing);
    var mgrs := MgrsText(latitude, longitude, easting, northing).value;
    ParsedEasting(mgrs);
    ParsedNorthing(mgrs);
    EastingRoundTrip(zone, easting);
    NorthingCongruent(zone, LatZone(latitude), northing);
    ZoneCentralMeridian(longitude);
  }

  /** Each field of an encoded reference reads back as what was encoded. */
  lemma ParsedReference(latitude: real, longitude: real, easting: nat, northing: nat)
    requires ValidLatitude(latitude) && ValidLongitude(longitude)
    requires 100000 <= easting < 900000
    ensures MgrsText(latitude, longitude, easting, northing).Ok?
    ensures var mgrs := MgrsText(latitude, longitude, easting, northing).value;
      var zone := LongZone(longitude);
      && MgrsWellFormed(mgrs)
      && ParseDigits(mgrs[..2]) == zone
      && mgrs[2] == LatZone(latitude)
      && mgrs[3] == Digraph1(zone, easting).letter
      && mgrs[4] == Digraph2(zone, northing).letter
      && ParseDigits(mgrs[5..10]) == easting % 100000
      && ParseDigits(mgrs[10..15]) == northing % 100000
  {
    var zone := LongZone(longitude);
    MgrsConcat(latitude, longitude, easting, northing);
    Fields(ZoneText(longitude), LatZone(latitude), Digraph1(zone, easting).letter,
           Digraph2(zone, northing).letter, EastingField(easting), NorthingField(northing));
  }

  /** The easting field of a parsed reference, in terms of its characters. */
  lemma ParsedEasting(mgrs: string)
    requires MgrsWellFormed(mgrs)
    ensures ParseMgrs(mgrs).easting
      == DecodeEasting(ParseDigits(mgrs[..2]), mgrs[3], ParseDigits(mgrs[5..10]))
  {
  }

  /** The northing field of a parsed reference, in terms of its characters. */
  lemma ParsedNorthing(mgrs: string)
    requires MgrsWellFormed(mgrs)
    ensures ParseMgrs(mgrs).northing
      == DecodeNorthing(ParseDigits(mgrs[..2]), mgrs[2], mgrs[4], ParseDigits(mgrs[10..15]))
  {
  }

  /** Below 100 km north of the equator the base of the row arithmetic is zero in
      band 'N', and the wrap meant for southern bands fires: 50 km north in zone 31
      encodes to row 'A' and decodes 10,000 km too high. */
  lemma EquatorWrapHigh()
    ensures Digraph2(31, 50000) == Letter('A')
    ensures DecodeNorthing(31, 'N', 'A', 50000) == 10050000
  {
    RowLetterAt(31, 50000, 1);
    AnchorOf('N', 11, 0);
    RowA();
    assert RowStart(31) == 1;
  }

  /** Southern northings near the equator in band 'M' of an even zone fall below
      the decoder's window: 9,500 km in zone 32 encodes to row 'A' with offset 0,
      and decodes 2,000 km too low. */
  lemma BandMCycleLow()
    ensures Digraph2(32, 9500000) == Letter('A')
    ensures DecodeNorthing(32, 'M', 'A', 0) == 7500000
  {
    RowLetterAt(32, 9500000, 1);
    AnchorOf('M', 10, -1);
    RowA();
    assert RowStart(32) == 6;
  }

  /** Band 'Q' reaches past its window in odd zones: its anchor is 0, so the window
      ends at 1,900 km, and 2,100 km in zone 31 encodes to row 'B' and decodes to
      100 km, 2,000 km low. */
  lemma BandQCycleLow()
    ensures Digraph2(31, 2100000) == Letter('B')
    ensures DecodeNorthing(31, 'Q', 'B', 0) == 100000
  {
    RowLetterAt(31, 2100000, 2);
    AnchorOf('Q', 13, 0);
    RowB();
    assert RowStart(31) == 1;
  }

  /** The row letter of a concrete northing, from its key. */
  lemma RowLetterAt(zone: int, northing: int, key: int)
    requires zone >= 1 && northing >= 0
    requires key == (1 + 5 * ((zone - 1) % 2) + northing / 100000) % 20
    ensures Digraph2(zone, northing) == Letter(RowLetters[key])
  {
  }

  /** The anchor of a band letter whose table degree lies in the `m`-th 2,000 km cycle. */
  lemma AnchorOf(band: char, k: int, m: int)
    requires 0 <= k < |Letters| && Letters[k] == band
    requires 2000000.0 * m as real <= Degrees[k] as real * 40000000.0 / 360.0 < 2000000.0 * m as real + 2000000.0
    ensures BandAnchor(LatZoneDegree(band)) == 2000000 * m
  {
    LatZoneDegreeTable(k);
    var a := BandAnchor(Degrees[k]);
    var j := a / 2000000;
    assert a == 2000000 * j;
    assert 2000000.0 * j as real <= Degrees[k] as real * 40000000.0 / 360.0 < 2000000.0 * j as real + 2000000.0;
    assert j == m;
  }

  lemma RowA()
    ensures Digraph2Index('A') == 1
  {
    RowIndexOf(1);
  }

  lemma RowB()
    ensures Digraph2Index('B') == 2
  {
    RowIndexOf(2);
  }
}

=== FILE: numerics.dfy ===
/** Java's integer semantics, written out over Dafny's unbounded `int` and exact `real`. */
module Numerics {

  const IntMin: int := -2147483648
  const IntMax: int := 2147483647

  /** The narrowing cast `(int) x` of a double: rounds toward zero and saturates at
      the bounds of a 32-bit `int`. */
  function TruncateToInt(x: real): (r: int)
    ensures IntMin <= r <= IntMax
    ensures 0.0 <= x < IntMax as real ==> r as real <= x < r as real + 1.0
    ensures IntMin as real < x < 0.0 ==> r as real - 1.0 < x <= r as real
    ensures x >= IntMax as real ==> r == IntMax
    ensures x <= IntMin as real ==> r == IntMin
  {
    if x >= IntMax as real then IntMax
    else if x <= IntMin as real then IntMin
    else if x >= 0.0 then x.Floor
    else -((-x).Floor)
  }

  /** Java's `/` on integers: the quotient rounded toward zero. */
  function TruncDiv(a: int, b: int): (q: int)
    requires b > 0
    ensures a >= 0 ==> q * b <= a < q * b + b
    ensures a < 0 ==> q * b - b < a <= q * b
  {
    if a >= 0 then a / b else -((-a) / b)
  }

  /** Java's `%`: the remainder takes the sign of the dividend. */
  function TruncRem(a: int, b: int): (r: int)
    requires b > 0
    ensures a == b * TruncDiv(a, b) + r
    ensures a >= 0 ==> 0 <= r < b && r == a % b
    ensures a < 0 ==> -b < r <= 0
  {
    if a >= 0 then a % b else -((-a) % b)
  }

  /** Division with remainder has exactly one solution. */
  lemma DivModUnique(a: int, m: int, q: int, r: int)
    requires m > 0
    requires 0 <= r < m
    requires a == q * m + r
    ensures a / m == q
    ensures a % m == r
  {
    var q0, r0 := a / m, a % m;
    assert (q - q0) * m == r0 - r;
    SmallMultipleIsZero(q - q0, m);
  }

  /** The only multiple of `m` strictly between `-m` and `m` is zero. */
  lemma SmallMultipleIsZero(d: int, m: int)
    requires m > 0
    requires -m < d * m < m
    ensures d == 0
  {
  }
}

=== FILE: sequences.dfy ===
/** Linear scans and ordering facts shared by the fixed letter and degree tables. */
module Sequences {

  /** Position of the first occurrence of `x` in `s`, or -1 when `x` does not occur.
      Every table lookup of the converter (`getDigraph1Index`, `getDigraph2Index`,
      `getLatZoneDegree`) is a front-to-back scan that stops at the first match. */
  function IndexOf<T(==)>(s: seq<T>, x: T): (i: int)
    ensures -1 <= i < |s|
    ensures i == -1 <==> x !in s
    ensures 0 <= i ==> s[i] == x && x !in s[..i]
  {
    var i := IndexFrom(s, x, 0);
    if i == -1 then -1
    else
      assert forall j :: 0 <= j < i ==> s[..i][j] == s[j];
      i
  }

  /** The scan of `IndexOf` from position `from` on. */
  function IndexFrom<T(==)>(s: seq<T>, x: T, from: nat): (i: int)
    requires from <= |s|
    ensures i == -1 || from <= i < |s|
    ensures i == -1 ==> forall j :: from <= j < |s| ==> s[j] != x
    ensures i != -1 ==> s[i] == x && forall j :: from <= j < i ==> s[j] != x
    decreases |s| - from
  {
    if from == |s| then -1
    else if s[from] == x then from
    else IndexFrom(s, x, from + 1)
  }

  /** The same scan counting from 1, still -1 when `x` does not occur. */
  function OneBasedIndexOf<T(==)>(s: seq<T>, x: T): (i: int)
    ensures i == -1 <==> x !in s
    ensures i != -1 ==> 1 <= i <= |s| && s[i - 1] == x
    ensures i != -1 ==> forall j :: 0 <= j < i - 1 ==> s[j] != x
  {
    var j := IndexOf(s, x);
    if j == -1 then -1 else j + 1
  }

  /** Each element of the table is strictly smaller than the next one. */
  ghost predicate AscendingChars(s: seq<char>) {
    forall i :: 0 <= i < |s| - 1 ==> s[i] < s[i + 1]
  }

  ghost predicate AscendingInts(s: seq<int>) {
    forall i :: 0 <= i < |s| - 1 ==> s[i] < s[i + 1]
  }

  /** A table whose neighbours ascend is ordered between any two positions. */
  lemma {:induction false} AscendingCharsOrdered(s: seq<char>, i: int, j: int)
    requires AscendingChars(s)
    requires 0 <= i < j < |s|
    ensures s[i] < s[j]
    decreases j - i
  {
    if i + 1 < j {
      AscendingCharsOrdered(s, i + 1, j);
    }
  }

  lemma {:induction false} AscendingIntsOrdered(s: seq<int>, i: int, j: int)
    requires AscendingInts(s)
    requires 0 <= i < j < |s|
    ensures s[i] < s[j]
    decreases j - i
  {
    if i + 1 < j {
      AscendingIntsOrdered(s, i + 1, j);
    }
  }

  /** In an ascending table every letter is found at its own position. */
  lemma IndexOfAscending(s: seq<char>, k: int)
    requires AscendingChars(s)
    requires 0 <= k < |s|
    ensures IndexOf(s, s[k]) == k
  {
    var i := IndexOf(s, s[k]);
    if i < k {
      AscendingCharsOrdered(s, i, k);
    }
  }
}

=== FILE: tokens.dfy ===
/** `String.split(" ")`: the text between single spaces, with Java's rules for a
    string without any space and for trailing empty pieces. */
module Tokens {

  predicate NoSpace(s: string) {
    ' ' !in s
  }

  /** Every piece between two spaces, empty pieces included. */
  function Pieces(s: string): (ps: seq<string>)
    ensures |ps| >= 1
    ensures |ps| == 1 <==> NoSpace(s)
    decreases |s|
  {
    if |s| == 0 then [""]
    else
      var rest := Pieces(s[1..]);
      if s[0] == ' ' then [""] + rest
      else [[s[0]] + rest[0]] + rest[1..]
  }

  /** Java drops the empty pieces at the end of the array. */
  function DropTrailingEmpty(ps: seq<string>): (qs: seq<string>)
    ensures |qs| <= |ps| && qs == ps[..|qs|]
    ensures |qs| > 0 ==> qs[|qs| - 1] != ""
    ensures forall i :: |qs| <= i < |ps| ==> ps[i] == ""
    decreases |ps|
  {
    if |ps| > 0 && ps[|ps| - 1] == "" then DropTrailingEmpty(ps[..|ps| - 1]) else ps
  }

  /** `s.split(" ")`: a string containing no space comes back whole; otherwise no
      token holds a space and the last token, if any, is not empty. */
  function Split(s: string): (ps: seq<string>)
    ensures NoSpace(s) ==> ps == [s]
    ensures forall i :: 0 <= i < |ps| ==> NoSpace(ps[i])
    ensures !NoSpace(s) && |ps| > 0 ==> ps[|ps| - 1] != ""
  {
    if NoSpace(s) then [s]
    else
      var qs := DropTrailingEmpty(Pieces(s));
      PiecesSpaceFree(s);
      assert forall i :: 0 <= i < |qs| ==> qs[i] == Pieces(s)[i];
      qs
  }

  /** No piece holds a space. */
  lemma {:induction false} PiecesSpaceFree(s: string)
    ensures forall i :: 0 <= i < |Pieces(s)| ==> NoSpace(Pieces(s)[i])
    decreases |s|
  {
    if |s| > 0 {
      PiecesSpaceFree(s[1..]);
      var rest := Pieces(s[1..]);
      if s[0] != ' ' {
        assert Pieces(s)[0] == [s[0]] + rest[0];
        assert forall i :: 1 <= i < |Pieces(s)| ==> Pieces(s)[i] == rest[i];
      } else {
        assert forall i :: 1 <= i < |Pieces(s)| ==> Pieces(s)[i] == rest[i - 1];
      }
    }
  }

  /** A space-free prefix followed by a space is the first piece. */
  lemma {:induction false} PiecesCons(t: string, rest: string)
    requires NoSpace(t)
    ensures Pieces(t + " " + rest) == [t] + Pieces(rest)
    decreases |t|
  {
    if |t| == 0 {
      assert t + " " + rest == " " + rest;
      assert (" " + rest)[1..] == rest;
    } else {
      var s := t + " " + rest;
      PiecesCons(t[1..], rest);
      assert s[1..] == t[1..] + " " + rest;
      var r := Pieces(s[1..]);
      assert r[0] == t[1..] && r[1..] == Pieces(rest);
      assert s[0] == t[0] && s[0] != ' ';
      assert Pieces(s) == [[s[0]] + r[0]] + r[1..];
      assert [t[0]] + t[1..] == t;
    }
  }

  /** A space-free string is a single piece. */
  lemma {:induction false} PiecesWhole(t: string)
    requires NoSpace(t)
    ensures Pieces(t) == [t]
    decreases |t|
  {
    if |t| > 0 {
      PiecesWhole(t[1..]);
      assert [t[0]] + t[1..] == t;
    }
  }

  /** Four space-free tokens joined by single spaces split back into themselves. */
  lemma SplitFour(a: string, b: string, c: string, d: string)
    requires NoSpace(a) && NoSpace(b) && NoSpace(c) && NoSpace(d)
    requires d != ""
    ensures Split(a + " " + (b + " " + (c + " " + d))) == [a, b, c, d]
  {
    var cd := c + " " + d;
    var bcd := b + " " + cd;
    var abcd := a + " " + bcd;
    PiecesWhole(d);
    PiecesCons(c, d);
    PiecesCons(b, cd);
    PiecesCons(a, bcd);
    assert abcd[|a|] == ' ';
    SplitKeeps(abcd, [a, b, c, d]);
  }

  lemma SplitKeeps(s: string, ps: seq<string>)
    requires Pieces(s) == ps
    requires |ps| > 1 && ps[|ps| - 1] != ""
    ensures Split(s) == ps
  {
  }
}

=== FILE: utm.dfy ===
/** The UTM text form `"<zone> <band> <easting> <northing>"`: how `LatLon2UTM`
    assembles it and how `UTM2LatLon` reads it back up to the inverse projection. */
module Utm {
  import opened Numerics
  import opened Decimal
  import opened Tokens
  import opened Validation
  import opened LongZones
  import opened LatZones
  import opened Sequences

  datatype Hemisphere = North | South

  /** The band letters `getHemisphere` treats as southern. */
  const SouthernBands: string := "ACDEFGHJKLM"

  ghost predicate OccursAt(hay: string, needle: string, i: int) {
    0 <= i && i + |needle| <= |hay| && hay[i..i + |needle|] == needle
  }

  /** `hay.indexOf(needle)` searching from position `from`: the first position at
      which `needle` occurs as a substring, or -1. */
  function IndexOfText(hay: string, needle: string, from: nat): (i: int)
    ensures i == -1 || (from <= i && OccursAt(hay, needle, i))
    ensures i == -1 <==> forall j :: from <= j ==> !OccursAt(hay, needle, j)
    ensures i != -1 ==> forall j :: from <= j < i ==> !OccursAt(hay, needle, j)
    decreases |hay| - from
  {
    if from + |needle| > |hay| then -1
    else if hay[from..from + |needle|] == needle then from
    else IndexOfText(hay, needle, from + 1)
  }

  /** `getHemisphere`: south exactly when the band text occurs inside "ACDEFGHJKLM". */
  function HemisphereOf(latZone: string): (h: Hemisphere)
    ensures h == South <==> exists j :: OccursAt(SouthernBands, latZone, j)
  {
    if IndexOfText(SouthernBands, latZone, 0) > -1 then South else North
  }

  /** For a one-letter band, south means the letter is one of "ACDEFGHJKLM". */
  lemma HemisphereOfLetter(c: char)
    ensures HemisphereOf([c]) == South <==> c in SouthernBands
  {
    OccursAtLetter(SouthernBands, c);
  }

  /** A one-character text occurs in `hay` exactly when its character does. */
  lemma OccursAtLetter(hay: string, c: char)
    ensures (exists j :: OccursAt(hay, [c], j)) <==> c in hay
  {
    if c in hay {
      var j :| 0 <= j < |hay| && hay[j] == c;
      assert OccursAt(hay, [c], j);
    }
    if exists j :: OccursAt(hay, [c], j) {
      var j :| OccursAt(hay, [c], j);
      assert hay[j] == hay[j..j + 1][0];
    }
  }

  /** The band `getLatZone` gives a latitude is southern exactly when the latitude
      truncates to a negative whole degree. */
  lemma HemisphereOfBand(latitude: real)
    ensures HemisphereOf([LatZone(latitude)]) == South <==> TruncateToInt(latitude) < 0
  {
    var band := LatZone(latitude);
    var k := IndexOf(Letters, band);
    assert 0 <= k && Letters[k] == band;
    HemisphereOfLetter(band);
    SouthernLetters(k);
    NegativeBands(k, TruncateToInt(latitude));
  }

  /** The southern letters are the first eleven of the band table. */
  lemma SouthernLetters(k: int)
    requires 0 <= k < |Letters|
    ensures Letters[k] in SouthernBands <==> k < 11
  {
    LettersAscend();
    assert SouthernBands == Letters[..11];
    if k < 11 {
      assert Letters[k] == Letters[..11][k];
    } else if Letters[k] in Letters[..11] {
      var j :| 0 <= j < 11 && Letters[..11][j] == Letters[k];
      AscendingCharsOrdered(Letters, j, k);
    }
  }

  /** The first eleven bands hold exactly the negative whole degrees. */
  lemma NegativeBands(k: int, t: int)
    requires BandCovers(k, t)
    ensures t < 0 <==> k < 11
  {
    DegreesAscend();
    if k < 11 && t >= 0 {
      AscendingIntsOrdered(Degrees, k + 1, 11);
    } else if k > 11 {
      AscendingIntsOrdered(Degrees, 11, k);
    }
  }

  /** The central meridian `UTM2LatLon` uses: that of the zone, or 3 degrees for a
      zone number that is not positive. */
  function InverseCentralMeridian(zone: int): (cm: real)
    ensures zone > 0 ==> cm == CentralMeridian(zone) as real
    ensures zone <= 0 ==> cm == 3.0
  {
    if zone > 0 then 6.0 * zone as real - 183.0 else 3.0
  }

  /** `convertLatLonToUTM` with the projected easting and northing given, already
      truncated to whole meters. */
  function UtmText(latitude: real, longitude: real, easting: nat, northing: nat): (r: Result<string>)
    ensures r.Ok? <==> ValidLatitude(latitude) && ValidLongitude(longitude)
    ensures r.Err? ==> r.error == IllegalArgument(RangeMessage)
  {
    match Validate(latitude, longitude)
    case Fail(e) => Err(e)
    case Pass =>
      Ok(JoinTokens(ZoneText(longitude), [LatZone(latitude)], NatToString(easting), NatToString(northing)))
  }

  /** Four tokens separated by single spaces; Java's split gives back the four
      tokens when none holds a space and the last is not empty. */
  function JoinTokens(a: string, b: string, c: string, d: string): (s: string)
    ensures NoSpace(a) && NoSpace(b) && NoSpace(c) && NoSpace(d) && d != "" ==>
      Split(s) == [a, b, c, d]
  {
    var s := a + " " + b + " " + c + " " + d;
    assert s == a + " " + (b + " " + (c + " " + d));
    if NoSpace(a) && NoSpace(b) && NoSpace(c) && NoSpace(d) && d != "" then
      SplitFour(a, b, c, d);
      s
    else s
  }

  /** What `convertUTMToLatLong` hands to the inverse projection: the zone, the band
      text, the easting, the northing (measured from the south pole's side when the
      band is southern), the hemisphere and the central meridian. */
  datatype UtmFields = UtmFields(
    zone: int, band: string, easting: real, northing: real,
    hemisphere: Hemisphere, centralMeridian: real)

  predicate NumberToken(s: string) {
    |s| >= 1 && IsDigits(s)
  }

  /** The text splits into at least four tokens and the numeric ones are digit
      strings, the zone one within `int` range; `Integer.parseInt` and
      `Double.parseDouble` throw on anything else. */
  predicate UtmWellFormed(utm: string) {
    var t := Split(utm);
    |t| >= 4 && NumberToken(t[0]) && NumberToken(t[2]) && NumberToken(t[3])
    && ParseDigits(t[0]) <= IntMax
  }

  /** `convertUTMToLatLong` up to the inverse projection series. */
  function ParseUtm(utm: string): (f: UtmFields)
    requires UtmWellFormed(utm)
    ensures f.easting >= 0.0
    ensures f.hemisphere == North ==> f.northing >= 0.0
    ensures f.hemisphere == South ==> f.northing <= 10000000.0
    ensures f.hemisphere == HemisphereOf(Split(utm)[1])
    ensures f.hemisphere == South ==> f.northing + ParseDigits(Split(utm)[3]) as real == 10000000.0
    ensures f.hemisphere == North ==> f.northing == ParseDigits(Split(utm)[3]) as real
    ensures f.zone > 0 ==> f.centralMeridian == CentralMeridian(f.zone) as real
  {
    var t := Split(utm);
    var zone := ParseDigits(t[0]);
    var band := t[1];
    var easting := ParseDigits(t[2]) as real;
    var northing := ParseDigits(t[3]) as real;
    var hemisphere := HemisphereOf(band);
    UtmFields(zone, band, easting,
              if hemisphere == South then 10000000.0 - northing else northing,
              hemisphere, InverseCentralMeridian(zone))
  }

  /** Reading back four joined tokens recovers the numbers and the band text. */
  lemma ParseJoined(a: string, b: string, c: string, d: string)
    requires NumberToken(a) && NumberToken(c) && NumberToken(d) && NoSpace(b)
    requires ParseDigits(a) <= IntMax
    ensures UtmWellFormed(JoinTokens(a, b, c, d))
    ensures var f := ParseUtm(JoinTokens(a, b, c, d));
      var h := HemisphereOf(b);
      && f.zone == ParseDigits(a) && f.band == b && f.easting == ParseDigits(c) as real
      && f.hemisphere == h
      && f.northing == (if h == South then 10000000.0 - ParseDigits(d) as real else ParseDigits(d) as real)
      && f.centralMeridian == InverseCentralMeridian(ParseDigits(a))
  {
    assert JoinTokens(a, b, c, d) == a + " " + (b + " " + (c + " " + d));
    SplitFour(a, b, c, d);
  }

  /** Reading back a UTM text recovers the zone, band, easting and northing it was
      built from; the hemisphere follows the band, and the central meridian used
      by the inverse is that of the forward transform, within three degrees of
      the longitude. */
  lemma UtmRoundTrip(latitude: real, longitude: real, easting: nat, northing: nat)
    requires ValidLatitude(latitude) && ValidLongitude(longitude)
    ensures UtmText(latitude, longitude, easting, northing).Ok?
    ensures var utm := UtmText(latitude, longitude, easting, northing).value;
      var south := TruncateToInt(latitude) < 0;
      && UtmWellFormed(utm)
      && ParseUtm(utm) == UtmFields(
           LongZone(longitude), [LatZone(latitude)], easting as real,
           if south then 10000000.0 - northing as real else northing as real,
           if south then South else North,
           CentralMeridian(LongZone(longitude)) as real)
      && -3.0 <= longitude - ParseUtm(utm).centralMeridian < 3.0
  {
    var a, b, c, d := ZoneText(longitude), [LatZone(latitude)], NatToString(easting), NatToString(northing);
    assert UtmText(latitude, longitude, easting, northing).value == JoinTokens(a, b, c, d);
    LettersUpperCase(LatZone(latitude));
    assert ParseDigits(a) == LongZone(longitude) <= IntMax;
    ParseNatToString(easting);
    ParseNatToString(northing);
    ParseJoined(a, b, c, d);
    HemisphereOfBand(latitude);
    ZoneCentralMeridian(longitude);
  }

  /** A latitude in (-1, 0) truncates to 0, so its band is 'N' and it reads back
      as northern, although the forward northing takes the southern false
      northing for every negative latitude. */
  lemma NearEquatorNorthern(latitude: real)
    requires -1.0 < latitude < 0.0
    ensures LatZone(latitude) == 'N'
    ensures HemisphereOf([LatZone(latitude)]) == North
  {
    assert TruncateToInt(latitude) == 0;
    LatZoneEdges(latitude);
    HemisphereOfBand(latitude);
  }
}

=== FILE: validation.dfy ===
/** The range check every forward conversion performs before anything else. */
module Validation {

  /** The `IllegalArgumentException` a rejected coordinate raises. */
  datatype RangeError = IllegalArgument(message: string)

  /** Outcome of a conversion: a value, or the exception that aborts it. */
  datatype Result<T> = Ok(value: T) | Err(error: RangeError)

  datatype Check = Pass | Fail(error: RangeError)

  const RangeMessage: string := "Legal ranges: latitude [-90,90], longitude [-180,180)."

  predicate ValidLatitude(latitude: real) {
    -90.0 <= latitude <= 90.0
  }

  /** Longitudes form a half-open interval: 180 itself is rejected, -180 accepted. */
  predicate ValidLongitude(longitude: real) {
    -180.0 <= longitude < 180.0
  }

  /** `validate`: rejects a coordinate outside the legal ranges; it never clamps. */
  function Validate(latitude: real, longitude: real): (c: Check)
    ensures c.Pass? <==> ValidLatitude(latitude) && ValidLongitude(longitude)
    ensures c.Fail? ==> c.error == IllegalArgument(RangeMessage)
  {
    if latitude < -90.0 || latitude > 90.0 || longitude < -180.0 || longitude >= 180.0 then
      Fail(IllegalArgument(RangeMessage))
    else
      Pass
  }
}
